=== FILE: README.md ===
# Interview classroom simulator: turn orchestration core

A Dafny model of the deterministic server logic of the AI classroom simulator, a
mock-interview "class" in which a teacher asks one interview question per stage
(intro, achievement, project, challenge, why, closing). Three simulated classmates
(Alex, Sofia, Jamal) react in turn, and a coach panel keeps scores. The model
covers five parts:

- **Stage catalog** (`MockEngine`, `server/src/mockEngine.js`): the question table,
  index clamping, the classmate round-robin and word-truncating summaries.
- **Coaching score** (`CoachEngine`, `server/src/coachEngine.js`): three metrics
  clamped to [35, 98], the B1/B2 level and the tip and issue lists.
- **Rule-based router** (`Router`, `server/src/router.js`): message normalization,
  enum coercion, addressee detection, and the priority-ordered `fallbackRoute`
  classifier. It also has the intent-to-action table and the deterministic path of
  `routeUserMessage`.
- **Session state machine** (`TurnController`, `server/src/turnController.js`):
  session normalization, the per-stage relevance rules, and the start, user-turn and
  next-turn transitions.
- **Orchestrator** (`Orchestrator`, `server/src/orchestrator.js`): session seeding,
  text heuristics, classmate choice and the four actions of `runTurn`.

Shared pieces live in `Basics` (option values, JavaScript's `slice` and truncating
`%`, clamping), `Text` (white space, trim, split/join, word-boundary keyword tests)
and `Conversation` (turns, history entries and the 60-entry history append).

Every transition is a pure function or method from a session to a new session. The
JavaScript code mutates its session object in place. The two things the server
cannot compute deterministically are parameters:

- the fresh session id (`freshId`);
- the optional language-model analysis of a user turn (`analysis`).

Keyword regexes are modelled literally, on lower-cased text: a keyword occurs at a
position with no word character on either side.

JavaScript's `%` truncates toward zero. It is modelled by `Basics.JsRem3`, so a
negative rotation index gives the same results as in the source.

## Model

| member | source | states |
|---|---|---|
| Basics.LastN | server/src/turnController.js:44 | `slice(-n)` keeps the last n elements of the list (all of a shorter list), in order |
| Basics.LastNAppend | server/src/turnController.js:49-51 | capping a history, appending and capping again keeps the same entries as appending and capping once |
| Basics.JsSliceFront | server/src/mockEngine.js:17 | `slice(0, n)` is a prefix: the first n elements (all of a shorter list) for `n >= 0`, and the list without its last `-n` elements for negative `n` |
| Basics.JsRem3 | server/src/orchestrator.js:258 | JavaScript's `a % 3` lies strictly between -3 and 3 and never has the opposite sign of `a` |
| Basics.JsRem3Congruent | server/src/orchestrator.js:258 | the truncating remainder differs from `a` by a multiple of 3, and equals the Euclidean `a % 3` exactly when `a >= 0` or 3 divides `a` |
| Basics.JsRem3Step | server/src/turnController.js:277 | for a non-negative counter, stepping the reduced rotation index by one and reducing again lands where reducing the stepped counter does |
| Text.Trim | server/src/turnController.js:57-59 | `trim()` has no white space at either end, lies inside the text, and is empty exactly when the text is all white space |
| Text.TrimStartDropsSpace | server/src/turnController.js:57-59 | every character the leading step of `trim()` drops from the front is white space |
| Text.TrimIsSlice | server/src/turnController.js:57-59 | the trimmed text is the slice of the text that starts right after its leading white space |
| Text.TrimDropsTrailingSpace | server/src/turnController.js:57-59 | every character after the trimmed text is white space |
| Text.TrimRemovesOnlySpace | server/src/turnController.js:57-59 | `trim()` removes white space only: the result is a slice of the text and everything before and after it is white space |
| Text.TrimIdempotent | server/src/turnController.js:57-59 | trimming twice is trimming once |
| Text.WordsTrim | server/src/orchestrator.js:60 | trimming a text does not change its white-space separated words |
| Text.WordsOfJoin | server/src/mockEngine.js:17-18 | joining non-empty, space-free words with single spaces and splitting the result gives back the same words |
| Text.JoinNormalized | server/src/mockEngine.js:18 | the single-space join of words is normalized: every blank is one plain space followed by a non-blank, and neither end is blank; it is non-empty when there is a word |
| Text.WordsCollapse | server/src/router.js:24-26 | replacing every run of white space by one space keeps exactly the same words |
| Text.JoinWordsOfNormalized | server/src/router.js:24-26 | a collapsed and trimmed text is the single-space join of its own words |
| Text.TrimCollapsed | server/src/router.js:25 | trimming a text without white-space runs leaves it without white space at the ends and still without runs |
| Text.MatchesAnyIff | server/src/router.js:7-11 | a word-bounded alternation of keywords matches exactly when one of its keywords occurs as a whole word |
| MockEngine.ClampQuestionIndex | server/src/mockEngine.js:12-14 | the result is a valid question index in [0, 5]: the index itself when already valid, the nearest end otherwise |
| MockEngine.ClampQuestionIndexMonotone | server/src/mockEngine.js:12-14 | clamping is monotone and idempotent, and advancing from the last stage stays there |
| MockEngine.SummaryWords | server/src/mockEngine.js:17 | the kept words are the first `min(maxWords, n)` words of the text (for `maxWords >= 0`), each non-empty and free of white space |
| MockEngine.SummarizeUserText | server/src/mockEngine.js:16-19 | the summary is the kept words joined by single spaces: it splits back into exactly those words and is normalized (one plain space between words, none at the ends); it is "your answer" when no word is kept |
| MockEngine.TeacherTemplatesClamp | server/src/mockEngine.js:21-30 | both teacher templates are defined for every integer index and read the same question as the clamped index |
| MockEngine.ClassmateTemplate | server/src/mockEngine.js:32-40 | the line is one of the three classmate lines, chosen by the role alone: Alex's exactly for "alex", Sofia's exactly for "sofia" |
| MockEngine.PickClassmate | server/src/mockEngine.js:42-44 | the pick is always one of the rotation, and is alex, sofia or jamal exactly when the index's absolute value is 0, 1 or 2 mod 3 |
| MockEngine.PickClassmatePeriodic | server/src/mockEngine.js:42-44 | the pick ignores the sign of the index and repeats every three steps |
| MockEngine.StageByIndex | server/src/turnController.js:107-116 | the stage at any integer index is the stage at the clamped index, in the order intro, achievement, project, challenge, why, closing |
| CoachEngine.ClampScore | server/src/coachEngine.js:10-12 | the score is in [35, 98], unchanged when already there, the nearest bound otherwise |
| CoachEngine.InitialCoach | server/src/coachEngine.js:1-16 | the initial snapshot has its metrics in range and level B1, which matches its vocabulary |
| CoachEngine.ApplyScoreDeltas | server/src/coachEngine.js:18-33 | each metric is the clamp of the previous value plus its delta, a missing delta counting 0; the level is B2 exactly when the new vocabulary is at least 76; the tips are the given tip then the standing tip; the issues are replaced only by a non-empty list |
| CoachEngine.AbsentCoachIsInitial | server/src/coachEngine.js:19 | a missing previous snapshot behaves exactly as the initial coach |
| CoachEngine.ZeroDeltasKeepScores | server/src/coachEngine.js:18-33 | with no deltas and no issues, a well-formed snapshot keeps its metrics, level and issues |
| CoachEngine.ApplyMonotone | server/src/coachEngine.js:20-22 | a larger delta never gives a lower metric |
| CoachEngine.ApplyAllWellFormed | server/src/coachEngine.js:18-33 | after any non-empty run of updates, whatever the deltas, every metric is in range and the level matches the vocabulary |
| Conversation.EntriesOf | server/src/turnController.js:50 | each turn becomes the entry holding only its role and text, one for one and in order |
| Conversation.AppendHistory | server/src/turnController.js:49-51 | the new history is the last `min(60, n)` entries of the old history followed by the new entries, and ends with the new entries |
| Conversation.AppendHistoryTwice | server/src/orchestrator.js:55-57 | two appends in a row keep the same entries as one append of both batches |
| Router.WireNamesListed | server/src/router.js:13-22 | every intent, agent and action name is in its wire list, and distinct values have distinct names |
| Router.NormalizeMessage | server/src/router.js:24-26 | the normalized message has no white space at the ends and no two white-space characters in a row, and is the single-space join of the text's words |
| Router.NormalizeMessageIdempotent | server/src/router.js:24-26 | normalizing twice is normalizing once |
| Router.ClampConfidence | server/src/router.js:28-32 | a missing value gives the fallback; any given value lands in [0, 1] and is kept when already there |
| Router.SafeEnum | server/src/router.js:34-36 | the result is an allowed value or the fallback, and is the value itself exactly when the value is allowed |
| Router.ParseIntent | server/src/router.js:34-36 | a name outside the intent list coerces to ANSWER |
| Router.ParseTarget | server/src/router.js:34-36 | a name outside the target list coerces to the teacher |
| Router.ParseWireNames | server/src/router.js:13-36 | coercing an intent's or agent's wire name gives back that intent or agent |
| Router.AgentOfRole | server/src/router.js:82 | a role is a peer exactly when it is alex, sofia or jamal, and a known agent's name is the role |
| Router.ExplicitTarget | server/src/router.js:38-45 | the target is unknown exactly when none of the five names occurs as a word, and otherwise is a name that occurs |
| Router.ExplicitTargetPriority | server/src/router.js:38-45 | when several names occur, the first in the order alex, sofia, jamal, teacher, class wins |
| Router.GetLastNonUserSpeaker | server/src/router.js:47-53 | the result is the role of the last entry with a non-empty, non-user role, or "unknown" when there is none |
| Router.DetectLastTeacherQuestion | server/src/router.js:55-60 | the result is the text of the last teacher entry, or the fallback when there is none or its text is empty |
| Router.QuestionKeywords | server/src/router.js:62-71 | a word is a keyword exactly when it is a piece of the lower-cased question split on `[^a-z0-9]+`, longer than three characters and not a stop word |
| Router.HasTopicalOverlapIff | server/src/router.js:73-78 | a text overlaps the question exactly when the question has no topical word or the lower-cased text contains one of its topical words |
| Router.DeriveAction | server/src/router.js:80-88 | each row of the intent-to-action table holds in both directions, a clarification goes to a peer exactly when addressed to one, and `ask_user_to_answer` is never produced |
| Router.BuildRoutingResult | server/src/router.js:90-114 | the result advances the state exactly on ANSWER, is addressed to its target, and carries the table's action and the window's last speaker and last teacher question |
| Router.Classify | server/src/router.js:127-162 | the intent follows the priority META, then question form (peer or clarification), then too short or achievement mismatch (OFFTOPIC), then ANSWER; the target is never unknown, questions to peers are ASK_CLASSMATE, other clarifications go to the teacher or the named class, and a message that names no one goes to the teacher unless it is a question for the last peer speaker |
| Router.FallbackRoute | server/src/router.js:116-173 | the same priority and target rules stated on the normalized, lower-cased message, at confidence 0.74, with a peer target whenever the action is `peer_reply`; a message naming no one goes to the teacher unless it is ASK_CLASSMATE |
| Router.TopicalOverlapOnlyChangesReason | server/src/router.js:157-162 | changing the current question never changes the intent, target, action, advance flag, confidence or last speaker |
| Router.RecentTurns | server/src/router.js:234-237 | the window is the last six history entries, or, with no history, one entry for a given last speaker other than "unknown" |
| Router.RouteUserMessage | server/src/router.js:225-251 | without the model, routing normalizes the text, reports confidence 0.74 and a known target, and advances exactly on ANSWER |
| Router.QuestionGoesToLastPeer | server/src/router.js:135-141 | a question naming nobody, after a peer spoke last, is an ASK_CLASSMATE to that peer with the `peer_reply` action |
| Router.SeededWindow | server/src/router.js:234-237 | with no history, a peer given as last speaker is the window's last speaker |
| Router.RouteFollowsLastPeer | server/src/router.js:225-251 | with no history, a question naming nobody is routed to the peer the client reports as last speaker |
| TurnController.Failures | server/src/turnController.js:61-105 | the issues are those of the failed checks and no others, and are empty exactly when every check passes |
| TurnController.EvaluateProject | server/src/turnController.js:75-84 | a project answer has no issues exactly when at least two of its three checks hold, and otherwise lists an issue exactly for each failed check |
| TurnController.StageIssuesEmptyIff | server/src/turnController.js:61-105 | a stage's issue list is empty exactly when its requirement holds: keyword and length 20, 25 or 20 for intro, why and closing, digit and impact word for achievement, two of three for project, both keyword groups for challenge |
| TurnController.ParseStage | server/src/turnController.js:122-127 | a stage id parses to the stage with that wire name, and only to it |
| TurnController.StageIndexOf | server/src/turnController.js:107-116 | a known stage id maps to that stage's catalog index, any other id to the last stage |
| TurnController.StageIndexRoundTrip | server/src/turnController.js:107-116 | looking up the id of the stage at any index gives back the clamped index |
| TurnController.EvaluateStage | server/src/turnController.js:118-151 | relevant exactly when there are no issues and exactly when the trimmed, lower-cased answer meets the requirement; irrelevant gives deltas (-1, 0, -2) and retry, relevant gives (2, v, 2) and advance, with v = 2 only for a number in an achievement |
| TurnController.EvaluateAnswer | server/src/turnController.js:118-151 | a known stage id is judged by that stage's rules; any other id is relevant with deltas (2, 1, 2) |
| TurnController.NormalizeSession | server/src/turnController.js:38-47 | the session is valid: a missing id gets a fresh one, a missing stage is 0 and a given one clamped, missing counters are 0, the history is the last `min(60, n)` given entries, and a missing coach is the initial one |
| TurnController.NormalizeRoundTrip | server/src/turnController.js:38-47 | normalizing a valid session's own fields gives back the same session |
| TurnController.RunStartTurn | server/src/turnController.js:186-204 | whatever the session, the start keeps only its id and leaves stage 0, rotation 0, turn 1, the initial coach and a history of just the one opening turn |
| TurnController.StartForgetsState | server/src/turnController.js:186-204 | two sessions with the same id start identically |
| TurnController.RunNextTurn | server/src/turnController.js:295-307 | only the turn counter (+1) and the history (+1 teacher entry, capped) change, the coach is reported unchanged, and a steady session stays steady |
| TurnController.KindOf | server/src/turnController.js:238-261 | each of the four intent names the controller tests maps to its own kind, in both directions |
| TurnController.IntentOf | server/src/turnController.js:213 | the intent is never empty, and a missing analysis means ANSWER |
| TurnController.ClarificationExamples | server/src/turnController.js:153-170 | every stage has two example answers for the clarification reply to quote |
| TurnController.RedirectPlan | server/src/turnController.js:238-258 | a redirecting branch is never relevant and hands the coach its reported issues; the analysis's deltas, tip and non-empty issues win over the branch's defaults |
| TurnController.IntentPlan | server/src/turnController.js:227-259 | without analysis deltas, CLARIFY and REFUSE cost (-1, 0, -1) and OFFTOPIC (-1, 0, -2); those three are never relevant, CLARIFY and REFUSE always report an issue, and any other intent keeps the stage evaluation |
| TurnController.UserEntryText | server/src/turnController.js:207-208 | the recorded text is never empty, and is the trimmed answer whenever the answer is not blank |
| TurnController.EvaluateCurrent | server/src/turnController.js:211-212 | the current-stage evaluation is relevant exactly when the trimmed, lower-cased answer meets the stage requirement, with the reward or penalty deltas |
| TurnController.DecideReply | server/src/turnController.js:211-272 | the stage advances to the clamped next stage exactly on an ANSWER that meets the requirement; relevance needs a non-redirecting intent and a met requirement; the deltas are the analysis's own when given, else the per-intent defaults (-1, 0, -1) for CLARIFY and REFUSE and (-1, 0, -2) for OFFTOPIC, else the evaluation's; tip and coach issues follow the intent and the analysis |
| TurnController.AssembleTurn | server/src/turnController.js:274-292 | the history gains the user entry, the teacher and the rotation's classmate; the rotation steps by the truncating remainder; the turn counter grows by one; the coach applies the decided deltas |
| TurnController.ReplyTurns | server/src/turnController.js:220-224 | a user turn gets exactly two replies: the teacher's line first, then the line of the classmate whose turn it is in the rotation, spoken in that classmate's template |
| TurnController.RunUserTurn | server/src/turnController.js:206-293 | history gains [user, teacher, classmate] capped at 60, rotation becomes `(r + 1) % 3`, the stage advances exactly on a relevant ANSWER, and a steady session stays steady; the coach takes the turn's deltas: the analysis's own when it has them, else (-1, 0, -1) for CLARIFY and REFUSE, (-1, 0, -2) for OFFTOPIC and the evaluation's for other intents, with the turn's issues only when it is not relevant |
| TurnController.RunAnswers | server/src/turnController.js:206-293 | over any run of answers a steady session stays steady, the turn counter counts the answers, and the stage never moves back and moves at most one step per answer |
| Orchestrator.CreateSession | server/src/orchestrator.js:28-37 | missing counters default to 0, a given id is kept and a missing one replaced, and the history is the last `min(50, n)` given entries |
| Orchestrator.CreateSessionRoundTrip | server/src/orchestrator.js:28-37 | re-seeding a session from its own fields gives it back with its history capped at 50, and re-seeding twice changes nothing more |
| Orchestrator.ClampStage | server/src/orchestrator.js:39-41 | the result is a prompt index in [0, 5]: the index itself when valid, the nearest end otherwise |
| Orchestrator.FillerCount | server/src/orchestrator.js:61 | the filler count never exceeds the length of the text |
| Orchestrator.FillersFrom | server/src/orchestrator.js:61 | the count of filler positions from a point on never exceeds the characters left |
| Orchestrator.FillersFromCountsStarts | server/src/orchestrator.js:61 | counting from a position gives the size of the set of positions from there on where a filler starts as a whole word |
| Orchestrator.FillerCountIsMatchCount | server/src/orchestrator.js:61 | the filler count is the number of positions of the lower-cased text where um, uh, like, actually or maybe starts as a whole word, and it is positive exactly when there is such a position, and it is unchanged by lower-casing the text first |
| Orchestrator.FillerStartsNonEmpty | server/src/orchestrator.js:61 | the set of filler starts is non-empty exactly when some position holds a filler |
| Orchestrator.FillerAtSome | server/src/orchestrator.js:61 | a filler match at a position is one particular filler occurring there as a whole word |
| Orchestrator.FillersAreWordChars | server/src/orchestrator.js:61 | every character of every filler is a word character, as the regex word boundaries require |
| Orchestrator.FillerMatchesDisjoint | server/src/orchestrator.js:61 | a whole-word filler match that starts after another starts after that one's end, so matches never overlap and a global search counts one match per start position |
| Orchestrator.LongWords | server/src/orchestrator.js:62 | the count is at most the number of words, and is zero exactly when no word is longer than seven characters |
| Orchestrator.LongWordsSingle | server/src/orchestrator.js:62 | a single word counts once exactly when it is longer than seven characters |
| Orchestrator.LongWordsConcat | server/src/orchestrator.js:62 | the count of a concatenation is the sum of the counts, so the count is the number of words longer than seven characters |
| Orchestrator.Metrics | server/src/orchestrator.js:63-66 | confidence is in [40, 98], clarity in [30, 95], vocabulary in [35, 96] and quality in [1, 10] |
| Orchestrator.MetricsMonotone | server/src/orchestrator.js:63-65 | more words never lower confidence or clarity, fewer fillers never lower them, and more long words never lower vocabulary |
| Orchestrator.QualityIsRoundedMean | server/src/orchestrator.js:66 | the quality score is the metric sum divided by 30 and rounded, and is never below 4 |
| Orchestrator.VocabularyThreshold | server/src/orchestrator.js:62-72 | the vocabulary passes 75, the B2 threshold, exactly from six long words on |
| Orchestrator.HeuristicFeedback | server/src/orchestrator.js:59-81 | the four scores are Metrics of the word count, the filler count and the long-word count, and lie in their ranges; the level is B2 exactly at six long words or more, the first tip is the filler tip exactly for more than one filler, and the filler issues are reported exactly when there is a filler |
| Orchestrator.RotationRole | server/src/orchestrator.js:84 | a non-negative rotation reads `CLASSMATE_ORDER[r mod 3]`, and the role is undefined exactly when the truncating remainder is negative |
| Orchestrator.PickClassmate | server/src/orchestrator.js:83-93 | outside the every-third-turn override the rotation decides; on an override turn a weak answer calls Sofia, stages 0 and 1 Alex, stages 3 on Jamal and stage 2 the rotation |
| Orchestrator.ClassmateReaction | server/src/orchestrator.js:95-118 | Alex praises exactly the answers of quality 7 or more, Sofia encourages exactly those of 4 or less, and anyone else mentions a conflict story exactly when the stage prompt contains "challenge" |
| Orchestrator.TeacherOpening | server/src/orchestrator.js:120-123 | the opening starts with the welcome and ends with the clamped stage's prompt |
| Orchestrator.FollowUpSummary | server/src/orchestrator.js:128 | the summary is empty exactly for a blank answer, its words are the answer's first eight, and it is normalized, so they are joined by single spaces |
| Orchestrator.TeacherFollowUp | server/src/orchestrator.js:125-139 | a weak answer (quality 4 or less) is thanked and asked to tighten, and a good one at the last stage gets the closing line |
| Orchestrator.TeacherFollowUpMovesOn | server/src/orchestrator.js:134-138 | a good answer below the last stage is recapped and followed by the next stage's prompt |
| Orchestrator.TeacherAdvance | server/src/orchestrator.js:145-147 | the advance line starts with "Let us move ahead." and ends with the clamped stage's prompt |
| Orchestrator.NextLiveTip | server/src/orchestrator.js:182-186 | stages 1 and 2 get their fixed tips, every other stage the feedback's first tip |
| Orchestrator.ModeOf | server/src/orchestrator.js:220 | the teacher and learner modes are recognized by name, in both directions |
| Orchestrator.ActionOf | server/src/orchestrator.js:194-196 | an empty action is start, and start, user_turn and next_turn are recognized by name, in both directions |
| Orchestrator.RecordUserText | server/src/orchestrator.js:216-218 | a blank answer adds no entry; otherwise the trimmed answer is appended as a user entry |
| Orchestrator.StartTurn | server/src/orchestrator.js:196-213 | the start sets stage 0, rotation 0, turn 1 and awaits a reply, with a history of exactly the one opening turn |
| Orchestrator.TeacherModeTurn | server/src/orchestrator.js:220-234 | teacher mode emits alex, sofia and jamal in that order; only the turn counter, the awaiting flag and the history change |
| Orchestrator.LearnerLines | server/src/orchestrator.js:236-239 | the teacher line is the follow-up for the clamped stage, and the classmate is the picked one with its reaction |
| Orchestrator.LearnerTurn | server/src/orchestrator.js:236-267 | a learner answer always advances to the clamped next stage, steps the rotation by the truncating remainder, emits [teacher, classmate] and records a non-blank answer |
| Orchestrator.NextAction | server/src/orchestrator.js:270-291 | a learner awaiting a reply is nudged and the stage stays; otherwise the stage advances and a reply is awaited; other modes only moderate |
| Orchestrator.DispatchAction | server/src/orchestrator.js:194-298 | each action has its documented outcome, and an unknown action leaves the session untouched and emits one teacher turn |
| Orchestrator.RunTurn | server/src/orchestrator.js:188-299 | on the seeded session the action has its documented outcome, and the feedback is the heuristic feedback of the answer |
| Orchestrator.ReseededLearnerStep | server/src/orchestrator.js:28-37 | a learner step from the re-seeded session is a learner step from the session itself |
| Orchestrator.LearnerAnswer | server/src/orchestrator.js:188-267 | sending a session back with a learner's user turn performs exactly one learner step |
| Orchestrator.RunLearnerAnswers | server/src/orchestrator.js:236-267 | after n answers the turn counter grew by n, for every seed stage the stage is ClampStage(ClampStage(stage + 1) + n - 1), which is the clamped stage n steps on when the seed stage is at least -1, and a non-negative rotation is `(r + n) mod 3` |

## Left out

- The language-model calls are not modelled. These are `aiRoute` (server/src/router.js:175-223), `llmTeacherVariant` (server/src/orchestrator.js:149-180) and the 3500 ms timeout race in `routeUserMessage` (server/src/router.js:243-250). They need the network, and without an API key they return `null`. So the router always takes the fallback path and the orchestrator always keeps its deterministic texts. The turn controller receives the model's analysis as a parameter.
- `createSessionId` (server/src/turnController.js:34-36, server/src/orchestrator.js:24-26) reads the clock and a random number, so the fresh id is the `freshId` parameter.
- `classifyUserTurn` (server/src/router.js:253-262) only forwards to `routeUserMessage` under other argument names, so it is not modelled.
- `normalizeScenario` (server/src/orchestrator.js:18-22) is not modelled, because `runTurn` never uses its result.
- `Number.isInteger`, `Array.isArray`, `Boolean(...)` and `Number(...)` coercions are modelled on already-typed values: a missing or non-integer field is `None`, and `awaitingUserReply` is a boolean.
- Router.ClampConfidence: works over mathematical reals; NaN, infinities and string-to-number coercion are not modelled, and no caller on the deterministic path uses it.
- Letter case is folded for ASCII letters only, and string lengths count characters rather than UTF-16 code units.
- Regular expressions are modelled as word-boundary keyword tests over an ASCII `\w`. The multi-word keywords (such as "faster than" and "my role") are tested as literal phrases.
- `stageByIndex`, `teacherRelevantFollowUp` and `teacherIrrelevantFollowUp` are imported by the turn controller from a version of mockEngine.js that is not part of this model. Their stage ids follow server/src/turnController.js:107-116, and their question, hint and follow-up texts are stand-ins.
- The HTTP server (server/src/index.js), the React client and the superseded copies under node_modules are not part of this model.
- Intent-name mismatch: the turn controller tests for CLARIFY, REFUSE and OFFTOPIC, but the router emits CLARIFICATION, ASK_CLASSMATE and META. Any intent other than the four the controller tests takes the plain answer path without advancing, as the source does.
- `runTurn`'s default parameters are taken as already applied: the mode is a string such as "learner", and a missing action is the empty string.
- The second argument the turn controller passes to `classmateTemplate` is ignored by the JavaScript function and is left out.
- Orchestrator.ClassmateReaction: the "challenge" test is stated on the prompt text. Which of the six prompts contain the word is not proved.
- TurnController.ClarificationExamples: states only that two examples exist, not which stage gets which pair.
- Orchestrator.LearnerAnswer: requires a non-empty session id, so that re-seeding keeps the id. A session the server returned always has one.
- Orchestrator.RotationRole: a negative rotation that is not a multiple of 3 reads `undefined` in the source, and is modelled as the empty role.
- Router.RouteUserMessage: states only the fields every route shares. The intent and target follow from Router.FallbackRoute on the window that Router.RecentTurns describes.
- Orchestrator.TeacherFollowUp: states the prefix and suffix of each line rather than its full text. The summary inside the line is described by Orchestrator.FollowUpSummary.
- JavaScript numbers are modelled as unbounded integers: every counter stays far below 2^53 in any real session.

=== FILE: basics.dfy ===
/** Small building blocks shared by every part of the model: an optional value
    for JavaScript's `undefined`/`null`, the array operations the server uses
    (`slice(-n)`, `slice(0, n)`) and JavaScript's truncating remainder. */
module Basics {

  /** `None` stands for a JavaScript value that is `null`, `undefined` or of the wrong type. */
  datatype Option<+T> = None | Some(value: T) {

    /** The wrapped value, or `default` when there is none (JavaScript's `x || default`
        for an object-valued `x`). */
    function GetOr(default: T): T {
      match this
      case Some(v) => v
      case None => default
    }
  }

  /** JavaScript's `s.slice(-n)` for a positive `n`: the last `n` elements of `s`,
      or all of `s` when it is shorter. */
  function LastN<T>(s: seq<T>, n: nat): (r: seq<T>)
    requires n > 0
    ensures |r| <= n && |r| <= |s|
    ensures |s| <= n ==> r == s
    ensures |s| > n ==> |r| == n
    ensures r == s[|s| - |r|..]
  {
    if |s| <= n then s else s[|s| - n..]
  }

  /** Keeping the last `n` twice in a row is the same as keeping the last `n` once:
      truncating after every append never loses an entry that a single truncation
      at the end would keep. */
  lemma {:induction false} LastNAppend<T>(a: seq<T>, b: seq<T>, n: nat)
    requires n > 0
    ensures LastN(LastN(a, n) + b, n) == LastN(a + b, n)
  {
    var t := LastN(a, n);
    if |a| > n {
      // t is a suffix of a of length n, so t + b is a suffix of a + b at least n long.
      assert t + b == (a + b)[|a| - n..];
      var u := (a + b)[|a| - n..];
      assert |u| >= n;
      assert u[|u| - |LastN(u, n)|..] == (a + b)[|a + b| - |LastN(u, n)|..];
    }
  }

  /** JavaScript's `s.slice(0, n)`: a negative `n` counts from the end. */
  function JsSliceFront<T>(s: seq<T>, n: int): (r: seq<T>)
    ensures |r| <= |s| && r == s[..|r|]
    ensures n >= 0 ==> |r| == if n < |s| then n else |s|
    ensures n < 0 ==> |r| == if |s| + n > 0 then |s| + n else 0
  {
    if n >= 0 then (if n < |s| then s[..n] else s)
    else if |s| + n > 0 then s[..|s| + n] else []
  }

  /** JavaScript's `a % 3`: the quotient is truncated toward zero, so the remainder
      takes the sign of `a` (unlike Dafny's Euclidean `%`). It is computed by stepping
      the dividend toward zero by 3. Every use in the server divides by 3, the number
      of classmates. */
  function JsRem3(a: int): (r: int)
    ensures -3 < r < 3
    ensures a >= 0 ==> r >= 0
    ensures a <= 0 ==> r <= 0
    decreases if a < 0 then -a else a
  {
    if -3 < a < 3 then a
    else if a >= 3 then JsRem3(a - 3)
    else JsRem3(a + 3)
  }

  /** The truncating remainder differs from its dividend by a multiple of 3, and agrees
      with Dafny's Euclidean one exactly on non-negative dividends. */
  lemma {:induction false} JsRem3Congruent(a: int)
    ensures (a - JsRem3(a)) % 3 == 0
    ensures JsRem3(a) == a % 3 <==> a >= 0 || a % 3 == 0
    decreases if a < 0 then -a else a
  {
    if a >= 3 {
      JsRem3Congruent(a - 3);
    } else if a <= -3 {
      JsRem3Congruent(a + 3);
    }
  }

  /** Stepping a non-negative counter through its remainder lands where stepping the
      counter itself does. */
  lemma JsRem3Step(a: int)
    requires a >= 0
    ensures JsRem3(JsRem3(a) + 1) == JsRem3(a + 1)
  {
    JsRem3Congruent(a);
    JsRem3Congruent(a + 1);
    JsRem3Congruent(JsRem3(a) + 1);
  }

  /** JavaScript's `a || b` on strings: `a` unless it is empty. */
  function OrElse(a: string, b: string): string
  {
    if a != "" then a else b
  }

  /** JavaScript's `Math.max(lo, Math.min(v, hi))` on integers. */
  function Clamp(lo: int, hi: int, v: int): (r: int)
    requires lo <= hi
    ensures lo <= r <= hi
    ensures lo <= v <= hi ==> r == v
    ensures v < lo ==> r == lo
    ensures v > hi ==> r == hi
  {
    if v < lo then lo else if v > hi then hi else v
  }
}

=== FILE: coach_engine.dfy ===
/** The coaching score of `server/src/coachEngine.js`: three integer metrics clamped
    to [35, 98], a level derived from vocabulary, and the tip and issue lists. */
module CoachEngine {
  import opened Basics

  const MIN_SCORE: int := 35
  const MAX_SCORE: int := 98
  /** The vocabulary score from which the level is B2. */
  const B2_VOCABULARY: int := 76
  /** The second tip every score update appends. */
  const STANDING_TIP: string := "Keep one idea per sentence to sound natural and precise."

  datatype Coach = Coach(
    confidence: int,
    vocabulary: int,
    clarity: int,
    level: string,
    tips: seq<string>,
    grammarIssues: seq<string>)

  /** The three metric changes of one turn; `None` is a missing field, which counts as 0. */
  datatype Deltas = Deltas(confidence: Option<int>, vocabulary: Option<int>, clarity: Option<int>)

  function FullDeltas(confidence: int, vocabulary: int, clarity: int): Deltas
  {
    Deltas(Some(confidence), Some(vocabulary), Some(clarity))
  }

  predicate InRange(v: int) {
    MIN_SCORE <= v <= MAX_SCORE
  }

  function LevelFor(vocabulary: int): string
  {
    if vocabulary >= B2_VOCABULARY then "B2" else "B1"
  }

  /** A snapshot as the engine produces it: metrics in range and the level matching
      the vocabulary. */
  predicate WellFormed(c: Coach) {
    InRange(c.confidence) && InRange(c.vocabulary) && InRange(c.clarity)
    && c.level == LevelFor(c.vocabulary) && |c.tips| > 0
  }

  /** `clampScore`. */
  function ClampScore(value: int): (r: int)
    ensures InRange(r)
    ensures InRange(value) ==> r == value
    ensures value < MIN_SCORE ==> r == MIN_SCORE
    ensures value > MAX_SCORE ==> r == MAX_SCORE
  {
    Clamp(MIN_SCORE, MAX_SCORE, value)
  }

  /** `createInitialCoach`: the baseline snapshot 62/58/60, level B1. */
  function InitialCoach(): (c: Coach)
    ensures WellFormed(c) && c.level == "B1"
  {
    Coach(62, 58, 60, "B1",
      ["Use one concrete example to support your claim."],
      ["Article usage", "Sentence variety"])
  }

  /** `applyScoreDeltas`: each metric moves by its delta (0 when missing) and is clamped;
      the level is re-derived; the tips become the given tip and the standing tip; the
      issue list is replaced only by a non-empty one. A missing previous snapshot is
      the initial coach. */
  function ApplyScoreDeltas(previous: Option<Coach>, deltas: Deltas, tip: string, issues: seq<string>): (r: Coach)
    ensures var cur := previous.GetOr(InitialCoach());
      && r.confidence == ClampScore(cur.confidence + deltas.confidence.GetOr(0))
      && r.vocabulary == ClampScore(cur.vocabulary + deltas.vocabulary.GetOr(0))
      && r.clarity == ClampScore(cur.clarity + deltas.clarity.GetOr(0))
      && r.grammarIssues == (if |issues| > 0 then issues else cur.grammarIssues)
    ensures WellFormed(r)
    ensures r.level == "B2" <==> r.vocabulary >= B2_VOCABULARY
    ensures r.tips == [tip, STANDING_TIP]
  {
    var current := previous.GetOr(InitialCoach());
    var confidence := ClampScore(current.confidence + deltas.confidence.GetOr(0));
    var vocabulary := ClampScore(current.vocabulary + deltas.vocabulary.GetOr(0));
    var clarity := ClampScore(current.clarity + deltas.clarity.GetOr(0));
    var level := if vocabulary >= 76 then "B2" else "B1";
    Coach(confidence, vocabulary, clarity, level, [tip, STANDING_TIP],
      if |issues| > 0 then issues else current.grammarIssues)
  }

  /** An absent previous snapshot behaves exactly as the initial coach. */
  lemma AbsentCoachIsInitial(deltas: Deltas, tip: string, issues: seq<string>)
    ensures ApplyScoreDeltas(None, deltas, tip, issues)
         == ApplyScoreDeltas(Some(InitialCoach()), deltas, tip, issues)
  {
  }

  /** Zero deltas leave well-formed metrics where they are. */
  lemma ZeroDeltasKeepScores(c: Coach, tip: string)
    requires WellFormed(c)
    ensures var r := ApplyScoreDeltas(Some(c), Deltas(None, None, None), tip, []);
      r.confidence == c.confidence && r.vocabulary == c.vocabulary && r.clarity == c.clarity
      && r.level == c.level && r.grammarIssues == c.grammarIssues
  {
  }

  /** A larger delta never yields a lower metric. */
  lemma ApplyMonotone(c: Coach, d1: Deltas, d2: Deltas, tip: string, issues: seq<string>)
    requires d1.confidence.GetOr(0) <= d2.confidence.GetOr(0)
    requires d1.vocabulary.GetOr(0) <= d2.vocabulary.GetOr(0)
    requires d1.clarity.GetOr(0) <= d2.clarity.GetOr(0)
    ensures var r1 := ApplyScoreDeltas(Some(c), d1, tip, issues);
      var r2 := ApplyScoreDeltas(Some(c), d2, tip, issues);
      r1.confidence <= r2.confidence && r1.vocabulary <= r2.vocabulary && r1.clarity <= r2.clarity
  {
  }

  /** One score update per turn, in order. */
  function ApplyAll(c: Coach, ds: seq<Deltas>, tip: string): Coach
    decreases |ds|
  {
    if |ds| == 0 then c else ApplyAll(ApplyScoreDeltas(Some(c), ds[0], tip, []), ds[1..], tip)
  }

  /** Whatever the deltas, after at least one update every metric is in [35, 98] and the
      level matches the vocabulary. */
  lemma {:induction false} ApplyAllWellFormed(c: Coach, ds: seq<Deltas>, tip: string)
    requires |ds| > 0 || WellFormed(c)
    ensures WellFormed(ApplyAll(c, ds, tip))
    decreases |ds|
  {
    if |ds| > 0 {
      ApplyAllWellFormed(ApplyScoreDeltas(Some(c), ds[0], tip, []), ds[1..], tip);
    }
  }
}

=== FILE: conversation.dfy ===
/** The shapes both orchestrators exchange with their caller: a spoken turn
    `{ speaker, role, text }` and a history entry `{ role, text }`, and the bounded
    history append both define identically (server/src/turnController.js:49-51,
    server/src/orchestrator.js:55-57). Roles are strings, as in the JSON the client
    sends back; the empty string stands for a missing or `undefined` role. */
module Conversation {
  import opened Basics

  const TEACHER: string := "teacher"
  const USER: string := "user"
  const PEERS: seq<string> := ["alex", "sofia", "jamal"]

  /** The most history entries a session keeps. */
  const HISTORY_LIMIT: nat := 60

  datatype Entry = Entry(role: string, text: string)

  datatype Turn = Turn(speaker: string, role: string, text: string)

  /** `roleToSpeaker`: the display name of a role. */
  function RoleToSpeaker(role: string): string
  {
    if role == TEACHER then "Teacher"
    else if role == "alex" then "Alex"
    else if role == "sofia" then "Sofia"
    else if role == "jamal" then "Jamal"
    else "You"
  }

  /** `toTurn` / `toMessage`. */
  function ToTurn(role: string, text: string): Turn
  {
    Turn(RoleToSpeaker(role), role, text)
  }

  /** The history entry of a turn: its role and text, without the display name. */
  function ToEntry(t: Turn): Entry
  {
    Entry(t.role, t.text)
  }

  function EntriesOf(turns: seq<Turn>): (es: seq<Entry>)
    ensures |es| == |turns|
    ensures forall i :: 0 <= i < |turns| ==> es[i] == Entry(turns[i].role, turns[i].text)
  {
    seq(|turns|, i requires 0 <= i < |turns| => ToEntry(turns[i]))
  }

  /** `appendHistory`: the most recent `HISTORY_LIMIT` entries of the old history followed
      by the new turns, each reduced to role and text. */
  function AppendHistory(history: seq<Entry>, turns: seq<Turn>): (r: seq<Entry>)
    ensures var all := history + EntriesOf(turns);
      && |r| == (if |all| < HISTORY_LIMIT then |all| else HISTORY_LIMIT)
      && r == all[|all| - |r|..]
    ensures |turns| <= HISTORY_LIMIT ==> r[|r| - |turns|..] == EntriesOf(turns)
  {
    LastN(history + EntriesOf(turns), HISTORY_LIMIT)
  }

  lemma EntriesOfConcat(a: seq<Turn>, b: seq<Turn>)
    ensures EntriesOf(a + b) == EntriesOf(a) + EntriesOf(b)
  {
  }

  /** Appending in two steps keeps the same entries as appending everything at once. */
  lemma AppendHistoryTwice(history: seq<Entry>, first: seq<Turn>, second: seq<Turn>)
    ensures AppendHistory(AppendHistory(history, first), second)
         == AppendHistory(history, first + second)
  {
    var h1 := history + EntriesOf(first);
    var e2 := EntriesOf(second);
    calc {
      AppendHistory(AppendHistory(history, first), second);
      LastN(LastN(h1, HISTORY_LIMIT) + e2, HISTORY_LIMIT);
      { LastNAppend(h1, e2, HISTORY_LIMIT); }
      LastN(h1 + e2, HISTORY_LIMIT);
      { EntriesOfConcat(first, second);
        assert h1 + e2 == history + EntriesOf(first + second); }
      LastN(history + EntriesOf(first + second), HISTORY_LIMIT);
    }
  }
}

=== FILE: mock_engine.dfy ===
/** The stage catalog of `server/src/mockEngine.js`: the fixed question table, the
    classmate rotation, index clamping, word-truncating summaries and the canned
    teacher/classmate lines. */
module MockEngine {
  import opened Basics
  import opened Text

  const INTERVIEW_QUESTIONS: seq<string> := [
    "Introduce yourself in 2-3 concise sentences.",
    "Share one measurable achievement and explain the impact.",
    "Walk through one project: your role, key decision, and result.",
    "What are your top strengths for this internship?",
    "Why should we hire you for this role?",
    "Give a short closing pitch for your candidacy."
  ]

  /** The index of the last stage. */
  const LAST_STAGE: int := |INTERVIEW_QUESTIONS| - 1

  /** Round-robin order of the classmates. */
  const CLASSMATE_ROTATION: seq<string> := ["alex", "sofia", "jamal"]

  /** The interview stages, in catalog order. */
  datatype StageId = Intro | Achievement | Project | Challenge | Why | Closing

  const STAGE_ORDER: seq<StageId> := [Intro, Achievement, Project, Challenge, Why, Closing]

  /** The id a stage carries on the wire. */
  function StageName(id: StageId): string
  {
    match id
    case Intro => "intro"
    case Achievement => "achievement"
    case Project => "project"
    case Challenge => "challenge"
    case Why => "why"
    case Closing => "closing"
  }

  /** What `summarizeUserText` says when the text has no words. */
  const NO_SUMMARY: string := "your answer"

  const CLASSMATE_LINES: seq<string> := [
    "Nice answer. Add one concrete metric and it becomes strong.",
    "I'm not fully confident yet, but this sounds clear.",
    "Good. Simple and clear."
  ]

  // The fixed parts of the teacher's lines.
  const INTRO_OPENING: string := "Welcome class. Interview simulation starts now. First question: "
  const SUMMARY_OPENING: string := "Good. Quick summary: \""
  const NEXT_QUESTION: string := "\". Next question: "
  const QUESTION_FOR: string := "Question for the "
  const HINT_FOR: string := "what the "

  datatype Stage = Stage(id: StageId, question: string, requirementHint: string)

  /** `clampQuestionIndex`: the nearest valid question index. */
  function ClampQuestionIndex(index: int): (r: int)
    ensures 0 <= r <= LAST_STAGE
    ensures 0 <= index <= LAST_STAGE ==> r == index
    ensures index < 0 ==> r == 0
    ensures index > LAST_STAGE ==> r == LAST_STAGE
  {
    Clamp(0, LAST_STAGE, index)
  }

  /** Clamping is monotone and idempotent: advancing from the last stage stays there. */
  lemma ClampQuestionIndexMonotone(i: int, j: int)
    requires i <= j
    ensures ClampQuestionIndex(i) <= ClampQuestionIndex(j)
    ensures ClampQuestionIndex(ClampQuestionIndex(i)) == ClampQuestionIndex(i)
    ensures ClampQuestionIndex(LAST_STAGE + 1) == LAST_STAGE
  {
  }

  /** The words `summarizeUserText` keeps: `text.trim().split(/\s+/).filter(Boolean).slice(0, maxWords)`,
      the first `maxWords` words of the text. */
  function SummaryWords(text: string, maxWords: int): (ws: seq<string>)
    ensures |ws| <= |Words(text)| && ws == Words(text)[..|ws|]
    ensures AreWords(ws)
    ensures maxWords >= 0 ==> |ws| == if maxWords < |Words(text)| then maxWords else |Words(text)|
  {
    WordsTrim(text);
    var ws := JsSliceFront(Words(Trim(text)), maxWords);
    AreWordsPrefix(Words(text), |ws|);
    ws
  }

  /** `summarizeUserText`: the first `maxWords` words joined by single spaces, or
      "your answer" when none are kept. */
  function SummarizeUserText(text: string, maxWords: int): (r: string)
    ensures var ws := SummaryWords(text, maxWords);
      && (|ws| == 0 ==> r == NO_SUMMARY)
      && (|ws| > 0 ==> Words(r) == ws && Normalized(r))
  {
    var ws := SummaryWords(text, maxWords);
    if |ws| == 0 then NO_SUMMARY
    else
      WordsOfJoin(ws);
      JoinNormalized(ws);
      Join(ws)
  }

  /** The default summary length used by the teacher follow-up. */
  function Summary(text: string): string
  {
    SummarizeUserText(text, 10)
  }

  /** `teacherIntroQuestion`: the opening line, naming the (clamped) stage's question. */
  function TeacherIntroQuestion(stageIndex: int): string
  {
    INTRO_OPENING + INTERVIEW_QUESTIONS[ClampQuestionIndex(stageIndex)]
  }

  /** `teacherFollowUpTemplate`: a summary of the answer and the (clamped) next question. */
  function TeacherFollowUpTemplate(userText: string, nextStageIndex: int): string
  {
    SUMMARY_OPENING + Summary(userText) + NEXT_QUESTION
      + INTERVIEW_QUESTIONS[ClampQuestionIndex(nextStageIndex)]
  }

  /** Both teacher templates are defined for every integer index, and any index reads
      the same question as its clamped value. */
  lemma TeacherTemplatesClamp(stageIndex: int, userText: string)
    ensures TeacherIntroQuestion(stageIndex) == TeacherIntroQuestion(ClampQuestionIndex(stageIndex))
    ensures TeacherFollowUpTemplate(userText, stageIndex)
         == TeacherFollowUpTemplate(userText, ClampQuestionIndex(stageIndex))
    ensures stageIndex < 0 ==> TeacherIntroQuestion(stageIndex) == TeacherIntroQuestion(0)
    ensures stageIndex > LAST_STAGE ==> TeacherIntroQuestion(stageIndex) == TeacherIntroQuestion(LAST_STAGE)
  {
  }

  /** `classmateTemplate`: a line that depends on the role alone. The caller in the turn
      controller passes a second argument, which JavaScript ignores; it is left out. */
  function ClassmateTemplate(role: string): (r: string)
    ensures r in CLASSMATE_LINES
    ensures r == CLASSMATE_LINES[0] <==> role == "alex"
    ensures r == CLASSMATE_LINES[1] <==> role == "sofia"
  {
    if role == "alex" then CLASSMATE_LINES[0]
    else if role == "sofia" then CLASSMATE_LINES[1]
    else CLASSMATE_LINES[2]
  }

  function Abs(x: int): nat {
    if x < 0 then -x else x
  }

  /** `pickClassmate`: the classmate at `|rotationIndex| mod 3` in the rotation. */
  function PickClassmate(rotationIndex: int): (r: string)
    ensures r in CLASSMATE_ROTATION
    ensures r == "alex" <==> Abs(rotationIndex) % 3 == 0
    ensures r == "sofia" <==> Abs(rotationIndex) % 3 == 1
    ensures r == "jamal" <==> Abs(rotationIndex) % 3 == 2
  {
    CLASSMATE_ROTATION[Abs(rotationIndex) % |CLASSMATE_ROTATION|]
  }

  /** The rotation repeats every three steps and ignores the sign of the index. */
  lemma PickClassmatePeriodic(r: int)
    ensures PickClassmate(-r) == PickClassmate(r)
    ensures r >= 0 ==> PickClassmate(r + 3) == PickClassmate(r)
  {
  }

  // ---------------------------------------------------------------------------
  // `stageByIndex`, `teacherRelevantFollowUp` and `teacherIrrelevantFollowUp` are
  // imported by the turn controller from a version of mockEngine.js that is not part
  // of this model. Stage ids follow the turn controller's own mapping
  // (server/src/turnController.js:107-116); the question and hint texts and the two
  // follow-up lines are stand-ins that only name their inputs.

  /** `stageByIndex`: the stage at the clamped index. */
  function StageByIndex(index: int): (s: Stage)
    ensures s.id == STAGE_ORDER[ClampQuestionIndex(index)]
  {
    var id := STAGE_ORDER[ClampQuestionIndex(index)];
    Stage(id, QUESTION_FOR + StageName(id) + " stage.", HINT_FOR + StageName(id) + " stage asks for")
  }

  /** Stand-in for `teacherRelevantFollowUp`: moves on to the next stage's question. */
  function TeacherRelevantFollowUp(userText: string, nextStageIndex: int): string
  {
    SUMMARY_OPENING + Summary(userText) + NEXT_QUESTION
      + StageByIndex(nextStageIndex).question
  }

  /** Stand-in for `teacherIrrelevantFollowUp`: asks again for what the stage requires. */
  function TeacherIrrelevantFollowUp(requirementHint: string): string
  {
    IRRELEVANT_OPENING + requirementHint + "."
  }

  const IRRELEVANT_OPENING: string := "You are close. Please include "
}

=== FILE: orchestrator.dfy ===
/** The older orchestrator of `server/src/orchestrator.js`, the one the HTTP server
    calls: session seeding, text-based heuristic scores, classmate selection and the
    start / user_turn / next_turn / unknown-action transitions of `runTurn`. The
    language-model variant is taken to be unavailable (it returns `null` without an
    API key), so the deterministic texts are always used. */
module Orchestrator {
  import opened Basics
  import opened Text
  import opened Conversation
  import MockEngine

  const STAGE_PROMPTS: seq<string> := [
    "Tell me about yourself in 2-3 concise sentences.",
    "Share one measurable achievement and the exact impact.",
    "Walk me through a project you built: your role, biggest decision, and result.",
    "Describe a challenge or conflict and how you resolved it.",
    "Why do you want this internship specifically at our company?",
    "Closing round: what questions do you have for us?"
  ]

  /** The index of the last prompt. */
  const LAST_PROMPT: int := |STAGE_PROMPTS| - 1

  const CLASSMATE_ORDER: seq<string> := ["alex", "sofia", "jamal"]

  /** The most history entries `createSession` carries over from the client. */
  const SEED_HISTORY_LIMIT: nat := 50

  // ---------------------------------------------------------------------------
  // Sessions

  datatype Session = Session(
    id: string, stageIndex: int, turnIndex: int, speakerRotationIndex: int,
    awaitingUserReply: bool, history: seq<Entry>)

  /** The session object a client sends back: `None` is a missing or non-integer field,
      `""` a missing id; `awaitingUserReply` is already reduced to its truthiness. */
  datatype Seed = Seed(
    id: string, stageIndex: Option<int>, turnIndex: Option<int>, speakerRotationIndex: Option<int>,
    awaitingUserReply: bool, history: Option<seq<Entry>>)

  /** `createSession`: every index defaults to 0 and only the last 50 history entries
      are kept. `freshId` stands for `createSessionId()`. */
  function CreateSession(seed: Seed, freshId: string): (r: Session)
    requires freshId != ""
    ensures r.id != "" && (seed.id != "" ==> r.id == seed.id)
    ensures r.stageIndex == seed.stageIndex.GetOr(0)
    ensures r.turnIndex == seed.turnIndex.GetOr(0)
    ensures r.speakerRotationIndex == seed.speakerRotationIndex.GetOr(0)
    ensures r.awaitingUserReply == seed.awaitingUserReply
    ensures seed.history.None? ==> r.history == []
    ensures seed.history.Some? ==> var h := seed.history.value;
      && |r.history| == (if |h| < SEED_HISTORY_LIMIT then |h| else SEED_HISTORY_LIMIT)
      && r.history == h[|h| - |r.history|..]
  {
    Session(
      if seed.id != "" then seed.id else freshId,
      seed.stageIndex.GetOr(0), seed.turnIndex.GetOr(0), seed.speakerRotationIndex.GetOr(0),
      seed.awaitingUserReply,
      if seed.history.Some? then LastN(seed.history.value, SEED_HISTORY_LIMIT) else [])
  }

  /** The seed a client sends back after receiving `s`. */
  function ToSeed(s: Session): Seed
  {
    Seed(s.id, Some(s.stageIndex), Some(s.turnIndex), Some(s.speakerRotationIndex),
      s.awaitingUserReply, Some(s.history))
  }

  /** Sending a session back re-seeds it unchanged except that its history is cut to
      the last 50 entries; a second round changes nothing more. */
  lemma CreateSessionRoundTrip(s: Session, freshId: string)
    requires s.id != "" && freshId != ""
    ensures CreateSession(ToSeed(s), freshId) == s.(history := LastN(s.history, SEED_HISTORY_LIMIT))
    ensures |s.history| <= SEED_HISTORY_LIMIT ==> CreateSession(ToSeed(s), freshId) == s
    ensures var t := CreateSession(ToSeed(s), freshId); CreateSession(ToSeed(t), freshId) == t
  {
  }

  /** `clampStage`. */
  function ClampStage(stageIndex: int): (r: int)
    ensures 0 <= r <= LAST_PROMPT
    ensures 0 <= stageIndex <= LAST_PROMPT ==> r == stageIndex
    ensures stageIndex < 0 ==> r == 0
    ensures stageIndex > LAST_PROMPT ==> r == LAST_PROMPT
  {
    Clamp(0, LAST_PROMPT, stageIndex)
  }

  // ---------------------------------------------------------------------------
  // Heuristic feedback

  /** The filler words `heuristicFeedback` counts, matched as whole words in any case. */
  const FILLERS: seq<string> := ["um", "uh", "like", "actually", "maybe"]

  /** A filler occurs as a whole word at position `i` of the lower-cased `s`. */
  predicate FillerAt(s: string, i: int, ks: seq<string>)
  {
    |ks| > 0 && (WordAt(s, i, ks[0]) || FillerAt(s, i, ks[1..]))
  }

  /** The number of positions of `s` from `i` on at which one of `ks` starts as a whole
      word. Filler matches never overlap (`FillerMatchesDisjoint`), so for the fillers
      this is the global match count. */
  function FillersFrom(s: string, i: nat, ks: seq<string>): (n: nat)
    ensures n <= |s| - i || (i > |s| && n == 0)
    decreases |s| - i
  {
    if i >= |s| then 0
    else (if FillerAt(s, i, ks) then 1 else 0) + FillersFrom(s, i + 1, ks)
  }

  /** `(text.match(/\b(um|uh|like|actually|maybe)\b/gi) || []).length`. */
  function FillerCount(text: string): (n: nat)
    ensures n <= |text|
  {
    FillersFrom(ToLower(text), 0, FILLERS)
  }

  lemma ToLowerIdempotent(s: string)
    ensures ToLower(ToLower(s)) == ToLower(s)
  {
  }

  /** The positions of `s` from `i` on at which one of `ks` starts as a whole word. */
  function FillerStarts(s: string, i: nat, ks: seq<string>): set<int>
  {
    set j | i <= j < |s| && FillerAt(s, j, ks)
  }

  /** Counting positions from `i` on counts exactly the filler starts there. */
  lemma {:induction false} FillersFromCountsStarts(s: string, i: nat, ks: seq<string>)
    ensures FillersFrom(s, i, ks) == |FillerStarts(s, i, ks)|
    decreases |s| - i
  {
    if i >= |s| {
      assert FillerStarts(s, i, ks) == {};
    } else {
      FillersFromCountsStarts(s, i + 1, ks);
      var rest := FillerStarts(s, i + 1, ks);
      assert i !in rest;
      forall j ensures j in FillerStarts(s, i, ks) <==> (j == i && FillerAt(s, i, ks)) || j in rest {
      }
      if FillerAt(s, i, ks) {
        assert FillerStarts(s, i, ks) == {i} + rest;
        assert |{i} + rest| == 1 + |rest|;
      } else {
        assert FillerStarts(s, i, ks) == rest;
      }
    }
  }

  /** The filler count is the number of positions of the lower-cased text at which a
      filler occurs as a whole word; it is positive exactly when there is one, and it
      ignores letter case. */
  lemma FillerCountIsMatchCount(text: string)
    ensures FillerCount(text) == |FillerStarts(ToLower(text), 0, FILLERS)|
    ensures FillerCount(text) > 0 <==> exists j :: 0 <= j < |text| && FillerAt(ToLower(text), j, FILLERS)
    ensures FillerCount(ToLower(text)) == FillerCount(text)
  {
    ToLowerIdempotent(text);
    var s := ToLower(text);
    assert |s| == |text|;
    FillersFromCountsStarts(s, 0, FILLERS);
    FillerStartsNonEmpty(s, FILLERS);
  }

  /** There is a filler start exactly when some position holds a filler. */
  lemma FillerStartsNonEmpty(s: string, ks: seq<string>)
    ensures |FillerStarts(s, 0, ks)| > 0 <==> exists j :: 0 <= j < |s| && FillerAt(s, j, ks)
  {
    var starts := FillerStarts(s, 0, ks);
    if j :| 0 <= j < |s| && FillerAt(s, j, ks) {
      assert j in starts;
      assert exists k :: 0 <= k < |s| && FillerAt(s, k, ks);
    } else {
      assert starts == {};
    }
  }

  /** A filler match at `i` is one of the fillers as a whole word there. */
  lemma {:induction false} FillerAtSome(s: string, i: int, ks: seq<string>)
    requires FillerAt(s, i, ks)
    ensures exists m :: 0 <= m < |ks| && WordAt(s, i, ks[m])
    decreases |ks|
  {
    if !WordAt(s, i, ks[0]) {
      FillerAtSome(s, i, ks[1..]);
      var m :| 0 <= m < |ks[1..]| && WordAt(s, i, ks[1..][m]);
      assert WordAt(s, i, ks[m + 1]);
    }
  }

  /** Every filler is made of word characters. */
  lemma FillersAreWordChars(m: int, c: int)
    requires 0 <= m < |FILLERS| && 0 <= c < |FILLERS[m]|
    ensures IsWordChar(FILLERS[m][c])
  {
  }

  /** Whole-word filler matches never overlap: a later match starts after the end of an
      earlier one. So a global left-to-right regex search finds one match per filler
      start, and the match count is the count of positions. */
  lemma FillerMatchesDisjoint(s: string, i: int, m: int, j: int)
    requires 0 <= m < |FILLERS| && WordAt(s, i, FILLERS[m])
    requires i < j && FillerAt(s, j, FILLERS)
    ensures j > i + |FILLERS[m]|
  {
    FillerAtSome(s, j, FILLERS);
    var n :| 0 <= n < |FILLERS| && WordAt(s, j, FILLERS[n]);
    if j <= i + |FILLERS[m]| {
      var c := j - 1 - i;
      assert s[i..i + |FILLERS[m]|][c] == s[j - 1];
      FillersAreWordChars(m, c);
      assert false;
    }
  }

  /** The number of words longer than seven characters. */
  function LongWords(ws: seq<string>): (n: nat)
    ensures n <= |ws|
    ensures n == 0 <==> forall i :: 0 <= i < |ws| ==> |ws[i]| <= 7
    decreases |ws|
  {
    if |ws| == 0 then 0
    else
      var rest := LongWords(ws[1..]);
      assert forall i :: 1 <= i < |ws| ==> ws[i] == ws[1..][i - 1];
      (if |ws[0]| > 7 then 1 else 0) + rest
  }

  /** A single word is long exactly when it has more than seven characters. */
  lemma LongWordsSingle(w: string)
    ensures LongWords([w]) == if |w| > 7 then 1 else 0
  {
  }

  /** The long-word count adds up over concatenated word lists, so together with
      `LongWordsSingle` it is the number of words longer than seven characters. */
  lemma {:induction false} LongWordsConcat(a: seq<string>, b: seq<string>)
    ensures LongWords(a + b) == LongWords(a) + LongWords(b)
    decreases |a|
  {
    if |a| > 0 {
      LongWordsConcat(a[1..], b);
      assert (a + b)[1..] == a[1..] + b;
      assert (a + b)[0] == a[0];
    } else {
      assert a + b == b;
    }
  }

  /** `Math.round(x / 30)` for a non-negative integer `x`: the nearest integer, halves
      rounded up. */
  function RoundDiv30(x: nat): (q: nat)
    ensures 30 * q - 15 <= x < 30 * q + 15
  {
    (x + 15) / 30
  }

  datatype Feedback = Feedback(
    confidence: int, clarity: int, vocabulary: int, level: string, qualityScore: int,
    tips: seq<string>, grammarIssues: seq<string>)

  const FILLER_TIP: string := "Reduce filler words and pause briefly between key points."
  const PACING_TIP: string := "Good pacing. Add a sharper closing sentence."
  const METRIC_EXAMPLE_TIP: string := "Use one concrete metric to prove impact (for example, +18% retention)."
  const STAR_STRUCTURE_TIP: string := "Keep STAR structure: situation, task, action, result."
  const FILLER_ISSUES: seq<string> := ["Filler words", "Verb tense consistency"]
  const PLAIN_ISSUES: seq<string> := ["Article usage", "Sentence variety"]

  /** The three metrics and the quality score from the word, filler and long-word counts. */
  function Metrics(words: nat, fillers: nat, longWords: nat): (m: (int, int, int, int))
    ensures 40 <= m.0 <= 98 && 30 <= m.1 <= 95 && 35 <= m.2 <= 96
    ensures 1 <= m.3 <= 10
  {
    var confidence := Clamp(40, 98, 62 + words - fillers * 4);
    var clarity := Clamp(30, 95, 68 - fillers * 8 + words / 4);
    var vocabulary := Clamp(35, 96, 55 + longWords * 4);
    var quality := Clamp(1, 10, RoundDiv30(confidence + clarity + vocabulary));
    (confidence, clarity, vocabulary, quality)
  }

  /** More words never lower confidence or clarity, more fillers never raise them, and
      more long words never lower vocabulary. */
  lemma MetricsMonotone(w1: nat, w2: nat, f1: nat, f2: nat, l1: nat, l2: nat)
    requires w1 <= w2 && f2 <= f1 && l1 <= l2
    ensures Metrics(w1, f1, l1).0 <= Metrics(w2, f2, l2).0
    ensures Metrics(w1, f1, l1).1 <= Metrics(w2, f2, l2).1
    ensures Metrics(w1, f1, l1).2 <= Metrics(w2, f2, l2).2
  {
  }

  /** The quality score is the rounded thirtieth of the metric sum; the sum lies in
      [105, 289], so the score is never below 4 and the clamp to [1, 10] never applies. */
  lemma QualityIsRoundedMean(words: nat, fillers: nat, longWords: nat)
    ensures var m := Metrics(words, fillers, longWords);
      && 4 <= m.3
      && 30 * m.3 - 15 <= m.0 + m.1 + m.2 < 30 * m.3 + 15
  {
  }

  /** The vocabulary passes 75, the B2 threshold, exactly from six long words on. */
  lemma VocabularyThreshold(words: nat, fillers: nat, longWords: nat)
    ensures Metrics(words, fillers, longWords).2 > 75 <==> longWords >= 6
  {
  }

  /** `heuristicFeedback`: scores computed from the text alone. */
  function HeuristicFeedback(text: string): (f: Feedback)
    ensures 40 <= f.confidence <= 98 && 30 <= f.clarity <= 95 && 35 <= f.vocabulary <= 96
    ensures 1 <= f.qualityScore <= 10
    ensures (f.confidence, f.clarity, f.vocabulary, f.qualityScore)
         == Metrics(|Words(text)|, FillerCount(text), LongWords(Words(text)))
    ensures f.level == "B2" <==> f.vocabulary > 75
    ensures f.vocabulary > 75 <==> LongWords(Words(text)) >= 6
    ensures |f.tips| == 3 && (f.tips[0] == FILLER_TIP <==> FillerCount(text) > 1)
    ensures f.grammarIssues == FILLER_ISSUES <==> FillerCount(text) > 0
  {
    var words := Words(text);
    var fillers := FillerCount(text);
    var m := Metrics(|words|, fillers, LongWords(words));
    VocabularyThreshold(|words|, fillers, LongWords(words));
    Feedback(m.0, m.1, m.2, if m.2 > 75 then "B2" else "B1", m.3,
      [if fillers > 1 then FILLER_TIP else PACING_TIP, METRIC_EXAMPLE_TIP, STAR_STRUCTURE_TIP],
      if fillers > 0 then FILLER_ISSUES else PLAIN_ISSUES)
  }

  // ---------------------------------------------------------------------------
  // Classmates and teacher lines

  /** `CLASSMATE_ORDER[rotation % 3]`: JavaScript's truncating remainder makes a negative
      rotation that is not a multiple of 3 read past the table, giving `undefined`,
      modelled as the empty role. */
  function RotationRole(rotation: int): (r: string)
    ensures rotation >= 0 ==> r == CLASSMATE_ORDER[rotation % 3]
    ensures r == "" <==> JsRem3(rotation) < 0
  {
    JsRem3Congruent(rotation);
    var k := JsRem3(rotation);
    if k >= 0 then CLASSMATE_ORDER[k] else ""
  }

  /** `pickClassmate`: the rotation's classmate, except on every third turn (turn index
      2 mod 3), when a weak answer calls on Sofia and early and late stages on Alex and
      Jamal. */
  function PickClassmate(s: Session, feedback: Feedback, stageIndex: int): (r: string)
    ensures r in CLASSMATE_ORDER || r == ""
    ensures JsRem3(s.turnIndex) != 2 ==> r == RotationRole(s.speakerRotationIndex)
    ensures JsRem3(s.turnIndex) == 2 && feedback.qualityScore <= 4 ==> r == "sofia"
    ensures JsRem3(s.turnIndex) == 2 && feedback.qualityScore > 4 ==>
      && (stageIndex <= 1 ==> r == "alex")
      && (stageIndex >= 3 ==> r == "jamal")
      && (stageIndex == 2 ==> r == RotationRole(s.speakerRotationIndex))
    ensures s.speakerRotationIndex >= 0 ==> r in CLASSMATE_ORDER
  {
    var rotationRole := RotationRole(s.speakerRotationIndex);
    if JsRem3(s.turnIndex) != 2 then rotationRole
    else if feedback.qualityScore <= 4 then "sofia"
    else if stageIndex <= 1 then "alex"
    else if stageIndex >= 3 then "jamal"
    else rotationRole
  }

  const ALEX_STRONG: string := "Nice and sharp. Add one hard number and it lands like a finalist answer."
  const ALEX_PLAIN: string := "Keep it concise and quantify one result. Even one number makes this answer stronger."
  const SOFIA_WEAK: string := "That is okay, you are close. Maybe clarify the action step before the result?"
  const SOFIA_PLAIN: string := "I liked that. Could you clarify one detail so it is easier to visualize?"
  const JAMAL_CHALLENGE: string := "Good energy. Maybe tighten the grammar a bit, but your conflict story sounds real."
  const JAMAL_PLAIN: string := "I like it, that sounds practical. Maybe keep sentences short so it sounds cleaner."

  /** `classmateReaction`: Alex praises a strong answer (quality at least 7), Sofia
      encourages a weak one (at most 4), and anyone else comments on a conflict story
      when the stage's prompt mentions a challenge. */
  function ClassmateReaction(role: string, feedback: Feedback, stageIndex: int): (r: string)
    ensures role == "alex" ==> (r == ALEX_STRONG <==> feedback.qualityScore >= 7) && (r == ALEX_STRONG || r == ALEX_PLAIN)
    ensures role == "sofia" ==> (r == SOFIA_WEAK <==> feedback.qualityScore <= 4) && (r == SOFIA_WEAK || r == SOFIA_PLAIN)
    ensures role != "alex" && role != "sofia" ==>
      (r == JAMAL_CHALLENGE <==> Contains(STAGE_PROMPTS[ClampStage(stageIndex)], "challenge"))
      && (r == JAMAL_CHALLENGE || r == JAMAL_PLAIN)
  {
    if role == "alex" then (if feedback.qualityScore >= 7 then ALEX_STRONG else ALEX_PLAIN)
    else if role == "sofia" then (if feedback.qualityScore <= 4 then SOFIA_WEAK else SOFIA_PLAIN)
    else if Contains(STAGE_PROMPTS[ClampStage(stageIndex)], "challenge") then JAMAL_CHALLENGE
    else JAMAL_PLAIN
  }

  const OPENING: string := "Welcome class. Tech interview simulation starts now. "
  const THANKS_OPENING: string := "Thanks for sharing. I heard \""
  const THANKS_CLOSING: string := "\". Please tighten it with one clear action and one measurable outcome."
  const DEFAULT_IDEA: string := "your idea"
  const SOLID_CLOSE: string := "Solid close. Before we finish, ask one thoughtful question about the team or role."
  const SUMMARY_OPENING: string := "Good. Quick summary: \""
  const DEFAULT_FRAMING: string := "you framed your answer"
  const NEXT_QUESTION: string := "\". Next question: "
  const NUDGE: string := "Take a moment and answer the current question when you are ready. Focus on one specific example."
  const ADVANCE_OPENING: string := "Let us move ahead. "
  const MODERATE: string := "Please continue moderating and invite one student to respond."
  const UNKNOWN_ACTION: string := "I did not understand that action. Please try again."

  /** `teacherOpening`: the opening line with the (clamped) stage's prompt. */
  function TeacherOpening(stageIndex: int): (r: string)
    ensures OPENING <= r && EndsWith(r, STAGE_PROMPTS[ClampStage(stageIndex)])
  {
    ConcatAffixes(OPENING, STAGE_PROMPTS[ClampStage(stageIndex)]);
    OPENING + STAGE_PROMPTS[ClampStage(stageIndex)]
  }

  /** `userText.trim().split(/\s+/).slice(0, 8).join(" ")`: the first eight words. */
  function FollowUpSummary(userText: string): (r: string)
    ensures r == "" <==> AllSpace(userText)
    ensures var n := if |Words(userText)| < 8 then |Words(userText)| else 8;
      Words(r) == Words(userText)[..n]
    ensures Normalized(r)
  {
    var ws := MockEngine.SummaryWords(userText, 8);
    if |ws| == 0 then "" else
      WordsOfJoin(ws);
      JoinNormalized(ws);
      Join(ws)
  }

  /** The line asking a weak answer to be tightened around its summary. */
  function ThanksLine(summary: string): (r: string)
    ensures THANKS_OPENING <= r
  {
    var rest := OrElse(summary, DEFAULT_IDEA) + THANKS_CLOSING;
    ConcatAffixes(THANKS_OPENING, rest);
    THANKS_OPENING + rest
  }

  /** The line recapping an answer and asking `prompt` next. */
  function MoveOnLine(summary: string, prompt: string): (r: string)
    ensures SUMMARY_OPENING <= r && EndsWith(r, prompt)
  {
    var middle := OrElse(summary, DEFAULT_FRAMING) + NEXT_QUESTION;
    ConcatAffixes3(SUMMARY_OPENING, middle, prompt);
    SUMMARY_OPENING + middle + prompt
  }

  /** `teacherFollowUp`: a weak answer is asked to be tightened; otherwise the last stage
      closes and any other stage moves on to the next stage's prompt. */
  function TeacherFollowUp(userText: string, stageIndex: int, feedback: Feedback): (r: string)
    ensures feedback.qualityScore <= 4 ==> THANKS_OPENING <= r
    ensures feedback.qualityScore > 4 && ClampStage(stageIndex) == LAST_PROMPT ==> r == SOLID_CLOSE
  {
    var current := ClampStage(stageIndex);
    var next := ClampStage(current + 1);
    if feedback.qualityScore <= 4 then ThanksLine(FollowUpSummary(userText))
    else if current >= LAST_PROMPT then SOLID_CLOSE
    else MoveOnLine(FollowUpSummary(userText), STAGE_PROMPTS[next])
  }

  /** Below the last stage, a good answer is recapped and followed by the next stage's
      prompt. */
  lemma TeacherFollowUpMovesOn(userText: string, stageIndex: int, feedback: Feedback)
    requires feedback.qualityScore > 4 && ClampStage(stageIndex) < LAST_PROMPT
    ensures var r := TeacherFollowUp(userText, stageIndex, feedback);
      SUMMARY_OPENING <= r && EndsWith(r, STAGE_PROMPTS[ClampStage(stageIndex) + 1])
  {
    var next := ClampStage(stageIndex) + 1;
    assert ClampStage(next) == next;
    var r := MoveOnLine(FollowUpSummary(userText), STAGE_PROMPTS[next]);
    assert TeacherFollowUp(userText, stageIndex, feedback) == r;
  }

  /** `teacherAdvance`: moving on to the (clamped) stage's prompt. */
  function TeacherAdvance(stageIndex: int): (r: string)
    ensures ADVANCE_OPENING <= r && EndsWith(r, STAGE_PROMPTS[ClampStage(stageIndex)])
  {
    ConcatAffixes(ADVANCE_OPENING, STAGE_PROMPTS[ClampStage(stageIndex)]);
    ADVANCE_OPENING + STAGE_PROMPTS[ClampStage(stageIndex)]
  }

  const ACHIEVEMENT_TIP: string := "Name one metric and explain why it mattered."
  const PROJECT_TIP: string := "Use STAR and keep your action section crisp."

  /** `nextLiveTip`: a fixed tip for the achievement and project stages, the feedback's
      first tip elsewhere. */
  function NextLiveTip(feedback: Feedback, stageIndex: int): (r: string)
    requires |feedback.tips| > 0
    ensures stageIndex == 1 ==> r == ACHIEVEMENT_TIP
    ensures stageIndex == 2 ==> r == PROJECT_TIP
    ensures stageIndex != 1 && stageIndex != 2 ==> r == feedback.tips[0]
  {
    if stageIndex == 1 then ACHIEVEMENT_TIP
    else if stageIndex == 2 then PROJECT_TIP
    else feedback.tips[0]
  }

  // ---------------------------------------------------------------------------
  // runTurn

  datatype Outcome = Outcome(session: Session, turns: seq<Turn>, feedback: Feedback, liveTip: string)

  const START: string := "start"
  const USER_TURN: string := "user_turn"
  const NEXT_TURN: string := "next_turn"
  const LEARNER: string := "learner"
  const TEACHER_MODE: string := "teacher"

  /** The modes `runTurn` distinguishes: the teacher mode, the learner mode, and any
      other name, which only the `next_turn` action tells apart from the learner. */
  datatype Mode = LearnerMode | TeacherMode | OtherMode

  function ModeOf(mode: string): (m: Mode)
    ensures m == TeacherMode <==> mode == TEACHER_MODE
    ensures m == LearnerMode <==> mode == LEARNER
  {
    if mode == TEACHER_MODE then TeacherMode
    else if mode == LEARNER then LearnerMode
    else OtherMode
  }

  /** The actions `runTurn` distinguishes; a missing action is `start`. */
  datatype Action = StartAction | UserTurnAction | NextTurnAction | UnknownAction

  function ActionOf(action: string): (a: Action)
    ensures a == StartAction <==> action == "" || action == START
    ensures a == UserTurnAction <==> action == USER_TURN
    ensures a == NextTurnAction <==> action == NEXT_TURN
  {
    var safeAction := OrElse(action, START);
    if safeAction == START then StartAction
    else if safeAction == USER_TURN then UserTurnAction
    else if safeAction == NEXT_TURN then NextTurnAction
    else UnknownAction
  }

  const START_LIVE_TIP: string := "Answer in 2-3 sentences, then add one concrete detail."
  const TEACHER_MODE_TIP: string := "As teacher mode, keep prompts short and ask only one question each turn."
  const FOCUS_TIP: string := "Keep each response focused: one idea, one example."
  const RETRY_TIP: string := "Retry the turn action."

  const ALEX_DEMO: string := "I built a campus support app and improved repeat usage by 21% through weekly user interviews."
  const SOFIA_DEMO: string := "I think your prompt is clear. Maybe can you repeat the success criteria once more?"
  const JAMAL_DEMO: string := "Great pace, teacher. Class is active and we can answer faster now."

  /** The history after the learner's text, which is recorded (trimmed) only when it is
      not blank. */
  function RecordUserText(history: seq<Entry>, userText: string): (h: seq<Entry>)
    ensures AllSpace(userText) ==> h == history
    ensures !AllSpace(userText) ==> h == AppendHistory(history, [ToTurn(USER, Trim(userText))])
  {
    if Trim(userText) != "" then AppendHistory(history, [ToTurn(USER, Trim(userText))]) else history
  }

  /** The `start` action: a fresh interview at the first prompt, awaiting the learner. */
  method StartTurn(s: Session, feedback: Feedback) returns (r: Outcome)
    ensures r.session.id == s.id
    ensures r.session.stageIndex == 0 && r.session.speakerRotationIndex == 0 && r.session.turnIndex == 1
    ensures r.session.awaitingUserReply
    ensures r.turns == [ToTurn(TEACHER, TeacherOpening(0))] && r.session.history == EntriesOf(r.turns)
    ensures r.feedback == feedback
  {
    var turns := [ToTurn(TEACHER, TeacherOpening(0))];
    r := Outcome(Session(s.id, 0, 1, 0, true, AppendHistory([], turns)), turns, feedback, START_LIVE_TIP);
  }

  /** A `user_turn` in teacher mode: the three classmates answer in order; the stage and
      the rotation stay where they are. */
  method TeacherModeTurn(s: Session, userText: string, feedback: Feedback) returns (r: Outcome)
    ensures r.session == s.(history := r.session.history, turnIndex := s.turnIndex + 1, awaitingUserReply := true)
    ensures |r.turns| == 3 && r.turns[0].role == "alex" && r.turns[1].role == "sofia" && r.turns[2].role == "jamal"
    ensures r.session.history == AppendHistory(RecordUserText(s.history, userText), r.turns)
    ensures r.feedback == feedback
  {
    var turns := [ToTurn("alex", ALEX_DEMO), ToTurn("sofia", SOFIA_DEMO), ToTurn("jamal", JAMAL_DEMO)];
    var history := AppendHistory(RecordUserText(s.history, userText), turns);
    r := Outcome(s.(history := history, turnIndex := s.turnIndex + 1, awaitingUserReply := true),
      turns, feedback, TEACHER_MODE_TIP);
  }

  /** The two lines of a learner's `user_turn`: the teacher's follow-up on the clamped
      stage and the picked classmate's reaction. */
  method LearnerLines(s: Session, userText: string, feedback: Feedback) returns (teacher: Turn, classmate: Turn)
    ensures teacher == ToTurn(TEACHER, TeacherFollowUp(userText, ClampStage(s.stageIndex), feedback))
    ensures classmate.role == PickClassmate(s, feedback, ClampStage(s.stageIndex))
      && classmate.text == ClassmateReaction(classmate.role, feedback, ClampStage(s.stageIndex))
  {
    var stageIndex := ClampStage(s.stageIndex);
    var classmateRole := PickClassmate(s, feedback, stageIndex);
    teacher := ToTurn(TEACHER, TeacherFollowUp(userText, stageIndex, feedback));
    classmate := ToTurn(classmateRole, ClassmateReaction(classmateRole, feedback, stageIndex));
  }

  /** A learner's `user_turn`: the teacher follows up and a classmate reacts; the stage
      always advances (clamped), whatever the answer, and the rotation moves on. */
  method LearnerTurn(s: Session, userText: string, feedback: Feedback) returns (r: Outcome)
    requires |feedback.tips| > 0
    ensures r.session.id == s.id && r.session.turnIndex == s.turnIndex + 1 && r.session.awaitingUserReply
    ensures r.session.stageIndex == ClampStage(s.stageIndex + 1)
    ensures r.session.speakerRotationIndex == JsRem3(s.speakerRotationIndex + 1)
    ensures |r.turns| == 2 && r.turns[0].role == TEACHER
      && r.turns[1].role == PickClassmate(s, feedback, ClampStage(s.stageIndex))
    ensures r.session.history == AppendHistory(RecordUserText(s.history, userText), r.turns)
    ensures r.liveTip == NextLiveTip(feedback, r.session.stageIndex) && r.feedback == feedback
  {
    var teacher, classmate := LearnerLines(s, userText, feedback);
    var turns := [teacher, classmate];
    var nextStage := ClampStage(s.stageIndex + 1);
    var session := Session(s.id, nextStage, s.turnIndex + 1, JsRem3(s.speakerRotationIndex + 1), true,
      AppendHistory(RecordUserText(s.history, userText), turns));
    r := Outcome(session, turns, feedback, NextLiveTip(feedback, nextStage));
  }

  /** The `next_turn` action: in learner mode the teacher nudges while an answer is
      awaited and otherwise moves to the next (clamped) stage; in any other mode the
      teacher asks to keep moderating. */
  method NextAction(mode: Mode, s: Session, feedback: Feedback) returns (r: Outcome)
    ensures r.session.id == s.id && r.session.turnIndex == s.turnIndex + 1
    ensures r.session.speakerRotationIndex == s.speakerRotationIndex
    ensures |r.turns| == 1 && r.turns[0].role == TEACHER
    ensures r.session.history == AppendHistory(s.history, r.turns)
    ensures mode == LearnerMode && s.awaitingUserReply ==>
      r.session.stageIndex == s.stageIndex && r.turns[0].text == NUDGE && r.session.awaitingUserReply
    ensures mode == LearnerMode && !s.awaitingUserReply ==>
      && r.session.stageIndex == ClampStage(s.stageIndex + 1) && r.session.awaitingUserReply
      && r.turns[0].text == TeacherAdvance(r.session.stageIndex)
    ensures mode != LearnerMode ==>
      r.session.stageIndex == s.stageIndex && r.session.awaitingUserReply == s.awaitingUserReply
    ensures r.feedback == feedback && r.liveTip == FOCUS_TIP
  {
    var stageIndex := s.stageIndex;
    var awaiting := s.awaitingUserReply;
    var teacherText: string;
    if mode == LearnerMode {
      if s.awaitingUserReply {
        teacherText := NUDGE;
      } else {
        stageIndex := ClampStage(s.stageIndex + 1);
        teacherText := TeacherAdvance(stageIndex);
        awaiting := true;
      }
    } else {
      teacherText := MODERATE;
    }
    var turns := [ToTurn(TEACHER, teacherText)];
    var session := Session(s.id, stageIndex, s.turnIndex + 1, s.speakerRotationIndex, awaiting,
      AppendHistory(s.history, turns));
    r := Outcome(session, turns, feedback, FOCUS_TIP);
  }

  /** The session after a learner's answer to `s`: one more turn, the stage one step on
      (clamped), the rotation one step on, an answer awaited and the history capped. */
  predicate LearnerStep(s: Session, t: Session)
  {
    && t.id == s.id && t.turnIndex == s.turnIndex + 1
    && t.stageIndex == ClampStage(s.stageIndex + 1)
    && t.speakerRotationIndex == JsRem3(s.speakerRotationIndex + 1)
    && t.awaitingUserReply && |t.history| <= HISTORY_LIMIT
  }

  /** What one action does to the normalized session `s`, whatever the feedback. */
  predicate TurnOutcome(mode: Mode, action: Action, s: Session, userText: string, r: Outcome)
  {
    && |r.turns| > 0 && r.session.id == s.id
    && (action == StartAction ==>
      && r.session.stageIndex == 0 && r.session.speakerRotationIndex == 0 && r.session.turnIndex == 1
      && r.session.awaitingUserReply && |r.turns| == 1 && r.turns[0].role == TEACHER
      && r.session.history == EntriesOf(r.turns))
    && (action == UserTurnAction ==>
      && r.session.turnIndex == s.turnIndex + 1 && r.session.awaitingUserReply
      && r.session.history == AppendHistory(RecordUserText(s.history, userText), r.turns))
    && (action == UserTurnAction && mode != TeacherMode ==>
      && LearnerStep(s, r.session)
      && |r.turns| == 2 && r.turns[0].role == TEACHER
      && r.turns[1].role == PickClassmate(s, r.feedback, ClampStage(s.stageIndex)))
    && (action == UserTurnAction && mode == TeacherMode ==>
      && r.session.stageIndex == s.stageIndex && r.session.speakerRotationIndex == s.speakerRotationIndex
      && |r.turns| == 3 && r.turns[0].role == "alex" && r.turns[1].role == "sofia" && r.turns[2].role == "jamal")
    && (action == NextTurnAction ==>
      && r.session.turnIndex == s.turnIndex + 1 && |r.turns| == 1 && r.turns[0].role == TEACHER
      && r.session.speakerRotationIndex == s.speakerRotationIndex
      && r.session.history == AppendHistory(s.history, r.turns)
      && (mode == LearnerMode && !s.awaitingUserReply ==> r.session.stageIndex == ClampStage(s.stageIndex + 1))
      && (mode != LearnerMode || s.awaitingUserReply ==> r.session.stageIndex == s.stageIndex))
    && (action == UnknownAction ==>
      && r.session == s && r.turns == [ToTurn(TEACHER, UNKNOWN_ACTION)] && r.liveTip == RETRY_TIP)
  }

  /** The action branch of `runTurn`, on a normalized session and computed feedback. */
  method DispatchAction(mode: Mode, action: Action, s: Session, userText: string, feedback: Feedback)
    returns (r: Outcome)
    requires |feedback.tips| > 0
    ensures r.feedback == feedback && TurnOutcome(mode, action, s, userText, r)
  {
    match action
    case StartAction =>
      r := StartTurn(s, feedback);
    case UserTurnAction =>
      if mode == TeacherMode {
        r := TeacherModeTurn(s, userText, feedback);
      } else {
        r := LearnerTurn(s, userText, feedback);
      }
    case NextTurnAction =>
      r := NextAction(mode, s, feedback);
    case UnknownAction =>
      r := Outcome(s, [ToTurn(TEACHER, UNKNOWN_ACTION)], feedback, RETRY_TIP);
  }

  /** `runTurn` with the language model unavailable: the session is normalized, the
      feedback is the heuristic one, and the action decides the turns. A missing action
      is `start`; `mode` is the already-defaulted mode ("learner" when the request has
      none). */
  method RunTurn(mode: string, action: string, seed: Seed, userText: string, freshId: string)
    returns (r: Outcome)
    requires freshId != ""
    ensures r.feedback == HeuristicFeedback(userText)
    ensures TurnOutcome(ModeOf(mode), ActionOf(action), CreateSession(seed, freshId), userText, r)
  {
    var session := CreateSession(seed, freshId);
    var feedback := HeuristicFeedback(userText);
    r := DispatchAction(ModeOf(mode), ActionOf(action), session, userText, feedback);
  }

  /** Re-seeding a session keeps every counter, so a learner step from the re-seeded
      session is a learner step from the original. */
  lemma ReseededLearnerStep(s: Session, freshId: string, t: Session)
    requires s.id != "" && freshId != ""
    requires LearnerStep(CreateSession(ToSeed(s), freshId), t)
    ensures LearnerStep(s, t)
  {
    var u := CreateSession(ToSeed(s), freshId);
    assert u.stageIndex == s.stageIndex && u.speakerRotationIndex == s.speakerRotationIndex;
  }

  /** A learner answering once on a session the client sends back. */
  method LearnerAnswer(s: Session, freshId: string, text: string) returns (r: Session)
    requires s.id != "" && freshId != ""
    ensures LearnerStep(s, r)
  {
    var out := RunTurn(LEARNER, USER_TURN, ToSeed(s), text, freshId);
    r := out.session;
    ReseededLearnerStep(s, freshId, r);
  }

  /** A learner answering `|texts|` times in a row, the client sending each returned
      session back: the stage climbs one step per answer up to the last prompt, the
      rotation cycles through the three classmates and the history never exceeds 60
      entries. */
  method RunLearnerAnswers(seed: Seed, freshId: string, texts: seq<string>) returns (r: Session)
    requires freshId != ""
    ensures var s := CreateSession(seed, freshId);
      && r.id == s.id && r.turnIndex == s.turnIndex + |texts|
      && (|texts| > 0 && s.stageIndex >= -1 ==> r.stageIndex == ClampStage(s.stageIndex + |texts|))
      && (|texts| > 0 ==> r.stageIndex == ClampStage(ClampStage(s.stageIndex + 1) + |texts| - 1))
      && (|texts| > 0 && s.speakerRotationIndex >= 0 ==>
            r.speakerRotationIndex == (s.speakerRotationIndex + |texts|) % 3)
      && (|texts| > 0 ==> r.awaitingUserReply && |r.history| <= HISTORY_LIMIT)
  {
    var s := CreateSession(seed, freshId);
    r := s;
    var i := 0;
    while i < |texts|
      invariant 0 <= i <= |texts|
      invariant i == 0 ==> r == s
      invariant r.id == s.id && r.turnIndex == s.turnIndex + i
      invariant i > 0 && s.stageIndex >= -1 ==> r.stageIndex == ClampStage(s.stageIndex + i)
      invariant i > 0 ==> r.stageIndex == ClampStage(ClampStage(s.stageIndex + 1) + i - 1)
      invariant i > 0 && s.speakerRotationIndex >= 0 ==> r.speakerRotationIndex == JsRem3(s.speakerRotationIndex + i)
      invariant i > 0 ==> r.awaitingUserReply && |r.history| <= HISTORY_LIMIT
    {
      if i > 0 && s.speakerRotationIndex >= 0 {
        JsRem3Step(s.speakerRotationIndex + i);
      }
      r := LearnerAnswer(r, freshId, texts[i]);
      i := i + 1;
    }
    if |texts| > 0 && s.speakerRotationIndex >= 0 {
      JsRem3Congruent(s.speakerRotationIndex + |texts|);
    }
  }
}

=== FILE: router.dfy ===
/** The intent router of `server/src/router.js`, along its deterministic path: without
    a language-model client, `routeUserMessage` always answers with `fallbackRoute`,
    the rule-based classifier. Intents, addressees and actions are enumerations here,
    with the wire names the JSON carries; regular-expression tests are word-boundary
    matches of their keyword lists against the lower-cased message. */
module Router {
  import opened Basics
  import opened Text
  import opened Conversation

  const CLARIFY_PHRASES: seq<string> := [
    "i do not understand", "i don't understand", "what do you mean", "can you explain",
    "could you explain", "nem ertem", "nem ertem a kerdest", "magyarazd el", "hogy erted"
  ]
  const QUESTION_WORDS: seq<string> := [
    "what", "why", "how", "when", "where", "can", "could", "would", "is", "are", "do", "does"
  ]
  const META_PHRASES: seq<string> := [
    "how does this work", "what is this app", "what should i do", "is 1 sentence ok",
    "one sentence ok", "can i do one sentence", "help me"
  ]
  const OFFTOPIC_HINTS: seq<string> := ["color", "pizza", "movie", "music", "cat", "dog"]
  const IMPACT_WORDS: seq<string> := [
    "improved", "reduced", "increased", "faster", "impact", "result", "outcome", "saved", "boosted"
  ]

  /** The wire names of the three enumerations, in the order the router lists them. */
  const TARGETS: seq<string> := ["teacher", "alex", "sofia", "jamal", "class", "unknown"]
  const INTENTS: seq<string> := ["ANSWER", "CLARIFICATION", "ASK_CLASSMATE", "META", "OFFTOPIC"]
  const ACTIONS: seq<string> := [
    "continue_interview", "teacher_clarify_question", "peer_reply",
    "teacher_redirect", "ask_user_to_answer", "handle_meta"
  ]

  datatype Intent = Answer | Clarification | AskClassmate | Meta | OffTopic
  datatype Agent = Teacher | Alex | Sofia | Jamal | Class | Unknown
  datatype Action =
    | ContinueInterview | TeacherClarifyQuestion | PeerReply
    | TeacherRedirect | AskUserToAnswer | HandleMeta

  function IntentName(i: Intent): string
  {
    match i
    case Answer => "ANSWER"
    case Clarification => "CLARIFICATION"
    case AskClassmate => "ASK_CLASSMATE"
    case Meta => "META"
    case OffTopic => "OFFTOPIC"
  }

  function AgentName(a: Agent): string
  {
    match a
    case Teacher => "teacher"
    case Alex => "alex"
    case Sofia => "sofia"
    case Jamal => "jamal"
    case Class => "class"
    case Unknown => "unknown"
  }

  function ActionName(a: Action): string
  {
    match a
    case ContinueInterview => "continue_interview"
    case TeacherClarifyQuestion => "teacher_clarify_question"
    case PeerReply => "peer_reply"
    case TeacherRedirect => "teacher_redirect"
    case AskUserToAnswer => "ask_user_to_answer"
    case HandleMeta => "handle_meta"
  }

  predicate IsPeer(a: Agent) {
    a == Alex || a == Sofia || a == Jamal
  }

  /** The names `explicitTarget` looks for, highest priority first. */
  const NAME_PRIORITY: seq<Agent> := [Alex, Sofia, Jamal, Teacher, Class]

  /** The fixed confidence the rule-based classifier reports. */
  const FALLBACK_CONFIDENCE: real := 0.74

  /** How many recent history entries the router looks at. */
  const RECENT_TURNS: nat := 6

  /** Shortest normalized message `fallbackRoute` does not reject as too short. */
  const MIN_ANSWER_LENGTH: int := 6

  /** Words of the current question that say nothing about its topic. */
  const STOP_WORDS: set<string> := {
    "what", "why", "how", "the", "and", "for", "your", "this", "that", "with", "from", "about",
    "into", "give", "short", "through", "walk", "share", "describe", "should", "hire",
    "internship", "question"
  }

  /** Why `fallbackRoute` chose its intent; `ReasonText` gives the sentence it reports. */
  datatype Reason =
    | MetaStyle | LastPeerClarification | ExplicitPeerQuestion | TeacherClarification
    | QuestionShape | TooShort | AchievementOffTopic | TopicalAnswer | DefaultAnswer

  function ReasonText(r: Reason): string
  {
    match r
    case MetaStyle => "Detected process/meta style question."
    case LastPeerClarification => "Clarification routed to last peer speaker."
    case ExplicitPeerQuestion => "Explicit peer target with question intent."
    case TeacherClarification => "Clarification without peer context routed to teacher."
    case QuestionShape => "Detected clarification/question form."
    case TooShort => "Message too short for a meaningful answer."
    case AchievementOffTopic => "Achievement stage mismatch (no metric/impact and off-topic keyword)."
    case TopicalAnswer => "Topical statement treated as answer."
    case DefaultAnswer => "Defaulted to answer; detailed grading will handle relevance."
  }

  datatype RoutingResult = RoutingResult(
    intent: Intent,
    targetAgent: Agent,
    confidence: real,
    normalizedUserMessage: string,
    reason: Reason,
    shouldAdvanceState: bool,
    recommendedAction: Action,
    lastSpeaker: string,
    lastTeacherQuestion: string,
    addressedTo: Agent)

  /** Every wire name is one the router lists, and distinct values have distinct names. */
  lemma WireNamesListed(i: Intent, j: Intent, a: Agent, b: Agent, x: Action, y: Action)
    ensures IntentName(i) in INTENTS && AgentName(a) in TARGETS && ActionName(x) in ACTIONS
    ensures IntentName(i) == IntentName(j) ==> i == j
    ensures AgentName(a) == AgentName(b) ==> a == b
    ensures ActionName(x) == ActionName(y) ==> x == y
  {
  }

  /** `normalizeMessage`: `text.replace(/\s+/g, " ").trim()`. The result is the text's
      words joined by single spaces. */
  function NormalizeMessage(text: string): (r: string)
    ensures Normalized(r)
    ensures r == Join(Words(text))
  {
    var c := CollapseSpaces(text);
    var r := Trim(c);
    TrimCollapsed(c);
    JoinWordsOfNormalized(r);
    WordsTrim(c);
    WordsCollapse(text);
    r
  }

  /** Normalizing twice is normalizing once. */
  lemma NormalizeMessageIdempotent(text: string)
    ensures NormalizeMessage(NormalizeMessage(text)) == NormalizeMessage(text)
  {
    var ws := Words(text);
    WordsOfJoin(ws);
  }

  /** `clampConfidence`, over the reals: `None` is a value that is not a finite number. */
  function ClampConfidence(value: Option<real>, fallback: real): (r: real)
    ensures value.None? ==> r == fallback
    ensures value.Some? ==> 0.0 <= r <= 1.0
    ensures value.Some? && 0.0 <= value.value <= 1.0 ==> r == value.value
  {
    match value
    case None => fallback
    case Some(n) => if n < 0.0 then 0.0 else if n > 1.0 then 1.0 else n
  }

  /** `safeEnum`: the value when it is allowed, the fallback otherwise. */
  function SafeEnum<T(==)>(value: T, allowed: seq<T>, fallback: T): (r: T)
    ensures r in allowed || r == fallback
    ensures value in allowed ==> r == value
    ensures value !in allowed ==> r == fallback
  {
    if value in allowed then value else fallback
  }

  /** The intent a wire name coerces to through `safeEnum(…, INTENTS, "ANSWER")`. */
  function ParseIntent(s: string): (r: Intent)
    ensures s !in INTENTS ==> r == Answer
  {
    var name := SafeEnum(s, INTENTS, "ANSWER");
    if name == "CLARIFICATION" then Clarification
    else if name == "ASK_CLASSMATE" then AskClassmate
    else if name == "META" then Meta
    else if name == "OFFTOPIC" then OffTopic
    else Answer
  }

  /** The addressee a wire name coerces to through `safeEnum(…, TARGETS, "teacher")`. */
  function ParseTarget(s: string): (r: Agent)
    ensures s !in TARGETS ==> r == Teacher
  {
    var name := SafeEnum(s, TARGETS, "teacher");
    if name == "alex" then Alex
    else if name == "sofia" then Sofia
    else if name == "jamal" then Jamal
    else if name == "class" then Class
    else if name == "unknown" then Unknown
    else Teacher
  }

  /** Coercion reads back every wire name unchanged. */
  lemma ParseWireNames(i: Intent, a: Agent)
    ensures ParseIntent(IntentName(i)) == i
    ensures ParseTarget(AgentName(a)) == a
  {
  }

  /** The agent a history role names: a peer exactly for the three peer roles. */
  function AgentOfRole(role: string): (a: Agent)
    ensures IsPeer(a) <==> role in PEERS
    ensures a != Unknown ==> AgentName(a) == role
  {
    if role == "alex" then Alex
    else if role == "sofia" then Sofia
    else if role == "jamal" then Jamal
    else if role == TEACHER then Teacher
    else if role == "class" then Class
    else Unknown
  }

  /** The text mentions the agent's name as a whole word. */
  predicate Mentions(lower: string, a: Agent) {
    ContainsWord(lower, AgentName(a))
  }

  /** `names[j]` is mentioned and no name before it is. */
  predicate FirstMentionAt(lower: string, names: seq<Agent>, j: int) {
    0 <= j < |names| && Mentions(lower, names[j]) && forall i :: 0 <= i < j ==> !Mentions(lower, names[i])
  }

  /** `explicitTarget`: the highest-priority name the (lower-cased) text mentions as a
      word, or unknown. */
  function ExplicitTarget(lower: string): (r: Agent)
    ensures r == Unknown <==> forall j :: 0 <= j < |NAME_PRIORITY| ==> !Mentions(lower, NAME_PRIORITY[j])
    ensures r != Unknown ==> Mentions(lower, r)
  {
    assert NAME_PRIORITY[0] == Alex && NAME_PRIORITY[1] == Sofia && NAME_PRIORITY[2] == Jamal
      && NAME_PRIORITY[3] == Teacher && NAME_PRIORITY[4] == Class;
    if Mentions(lower, Alex) then Alex
    else if Mentions(lower, Sofia) then Sofia
    else if Mentions(lower, Jamal) then Jamal
    else if Mentions(lower, Teacher) then Teacher
    else if Mentions(lower, Class) then Class
    else Unknown
  }

  /** When several names are mentioned, the one first in the priority order wins. */
  lemma ExplicitTargetPriority(lower: string, j: int)
    requires FirstMentionAt(lower, NAME_PRIORITY, j)
    ensures ExplicitTarget(lower) == NAME_PRIORITY[j]
  {
    assert NAME_PRIORITY[0] == Alex && NAME_PRIORITY[1] == Sofia && NAME_PRIORITY[2] == Jamal
      && NAME_PRIORITY[3] == Teacher && NAME_PRIORITY[4] == Class;
  }

  /** A history entry that names a speaker other than the user (a truthy role). */
  predicate Speaks(e: Entry) {
    e.role != "" && e.role != USER
  }

  /** Entry `i` speaks and no later entry does. */
  predicate LastSpeakingAt(turns: seq<Entry>, i: int) {
    0 <= i < |turns| && Speaks(turns[i]) && forall j :: i < j < |turns| ==> !Speaks(turns[j])
  }

  /** `getLastNonUserSpeaker`: the role of the last entry that `Speaks`, or "unknown". */
  function GetLastNonUserSpeaker(recentTurns: seq<Entry>): (r: string)
    ensures (forall i :: 0 <= i < |recentTurns| ==> !Speaks(recentTurns[i])) ==> r == "unknown"
    ensures forall i :: LastSpeakingAt(recentTurns, i) ==> r == recentTurns[i].role
    decreases |recentTurns|
  {
    if |recentTurns| == 0 then "unknown"
    else
      var n := |recentTurns| - 1;
      var front := recentTurns[..n];
      if Speaks(recentTurns[n]) then recentTurns[n].role
      else
        assert forall i :: LastSpeakingAt(recentTurns, i) ==> LastSpeakingAt(front, i);
        GetLastNonUserSpeaker(front)
  }

  /** Entry `i` is the teacher's and no later entry is. */
  predicate LastTeacherAt(turns: seq<Entry>, i: int) {
    0 <= i < |turns| && turns[i].role == TEACHER && forall j :: i < j < |turns| ==> turns[j].role != TEACHER
  }

  /** `detectLastTeacherQuestion`: the text of the last teacher entry, or the fallback
      question when there is none or its text is empty. */
  function DetectLastTeacherQuestion(recentTurns: seq<Entry>, fallbackQuestion: string): (r: string)
    ensures (forall i :: 0 <= i < |recentTurns| ==> recentTurns[i].role != TEACHER) ==> r == fallbackQuestion
    ensures forall i :: (LastTeacherAt(recentTurns, i)
      ==> r == if recentTurns[i].text != "" then recentTurns[i].text else fallbackQuestion)
    decreases |recentTurns|
  {
    if |recentTurns| == 0 then fallbackQuestion
    else
      var n := |recentTurns| - 1;
      var front := recentTurns[..n];
      if recentTurns[n].role == TEACHER then
        (if recentTurns[n].text != "" then recentTurns[n].text else fallbackQuestion)
      else
        assert forall i :: LastTeacherAt(recentTurns, i) ==> LastTeacherAt(front, i);
        DetectLastTeacherQuestion(front, fallbackQuestion)
  }

  /** A topical word: longer than three letters and not a stop word. */
  predicate IsKeyword(w: string) {
    |w| > 3 && w !in STOP_WORDS
  }

  /** The filter of `questionKeywords`. */
  function KeepKeywords(ws: seq<string>): (r: seq<string>)
    ensures forall w :: w in r <==> w in ws && IsKeyword(w)
  {
    if |ws| == 0 then []
    else (if IsKeyword(ws[0]) then [ws[0]] else []) + KeepKeywords(ws[1..])
  }

  /** `questionKeywords`: the topical words of the question. */
  function QuestionKeywords(currentQuestion: string): (r: seq<string>)
    ensures forall w :: w in r <==>
      w in Split(ToLower(currentQuestion), NonLowerAlnum) && IsKeyword(w)
  {
    KeepKeywords(Split(ToLower(currentQuestion), NonLowerAlnum))
  }

  /** `hasTopicalOverlap`: the text contains one of the question's topical words (any
      text does when the question has none). */
  predicate HasTopicalOverlap(text: string, currentQuestion: string) {
    var keys := QuestionKeywords(currentQuestion);
    |keys| == 0 || exists k :: k in keys && Contains(ToLower(text), k)
  }

  /** The overlap test in terms of the question's own words: the question has no topical
      word at all, or the lower-cased text contains one of them. */
  lemma HasTopicalOverlapIff(text: string, currentQuestion: string)
    ensures var ws := Split(ToLower(currentQuestion), NonLowerAlnum);
      HasTopicalOverlap(text, currentQuestion) <==>
        (forall w :: w in ws ==> !IsKeyword(w))
        || (exists w :: w in ws && IsKeyword(w) && Contains(ToLower(text), w))
  {
    var ws := Split(ToLower(currentQuestion), NonLowerAlnum);
    var keys := QuestionKeywords(currentQuestion);
    if |keys| > 0 {
      assert keys[0] in keys;
      assert keys[0] in ws && IsKeyword(keys[0]);
    } else {
      forall w | w in ws ensures !IsKeyword(w) {
        assert w !in keys;
      }
    }
  }

  /** `deriveAction`: the fixed intent-to-action table. Its last row, `ask_user_to_answer`,
      is for intents outside the list, which a typed intent cannot be. */
  function DeriveAction(intent: Intent, targetAgent: Agent): (r: Action)
    ensures r == PeerReply <==> intent == AskClassmate || (intent == Clarification && IsPeer(targetAgent))
    ensures r == TeacherClarifyQuestion <==> intent == Clarification && !IsPeer(targetAgent)
    ensures r == HandleMeta <==> intent == Meta
    ensures r == TeacherRedirect <==> intent == OffTopic
    ensures r == ContinueInterview <==> intent == Answer
    ensures r != AskUserToAnswer
  {
    match intent
    case AskClassmate => PeerReply
    case Clarification => if IsPeer(targetAgent) then PeerReply else TeacherClarifyQuestion
    case Meta => HandleMeta
    case OffTopic => TeacherRedirect
    case Answer => ContinueInterview
  }

  /** `buildRoutingResult`: completes a classification with its action, the advance flag
      and the context fields. */
  function BuildRoutingResult(
    intent: Intent, targetAgent: Agent, confidence: real, normalizedUserMessage: string,
    reason: Reason, currentQuestion: string, recentTurns: seq<Entry>): (r: RoutingResult)
    ensures r.intent == intent && r.targetAgent == targetAgent && r.confidence == confidence
    ensures r.normalizedUserMessage == normalizedUserMessage && r.reason == reason
    ensures r.shouldAdvanceState <==> intent == Answer
    ensures r.addressedTo == r.targetAgent
    ensures r.recommendedAction == DeriveAction(intent, targetAgent)
    ensures r.lastSpeaker == GetLastNonUserSpeaker(recentTurns)
    ensures r.lastTeacherQuestion == DetectLastTeacherQuestion(recentTurns, currentQuestion)
  {
    RoutingResult(
      intent, targetAgent, confidence, normalizedUserMessage, reason,
      intent == Answer,
      DeriveAction(intent, targetAgent),
      GetLastNonUserSpeaker(recentTurns),
      DetectLastTeacherQuestion(recentTurns, currentQuestion),
      targetAgent)
  }

  // ---------------------------------------------------------------------------
  // The cues `fallbackRoute` reads from the lower-cased message.

  predicate MetaLike(lower: string) {
    MatchesAny(lower, META_PHRASES)
  }

  /** A clarification phrase, a question mark, or a leading question word. */
  predicate QuestionForm(lower: string) {
    MatchesAny(lower, CLARIFY_PHRASES) || '?' in lower || StartsWithAny(lower, QUESTION_WORDS)
  }

  /** The achievement-stage off-topic heuristic: an unrelated-topic word, and neither a
      digit nor an impact word. */
  predicate AchievementMismatch(stageId: string, lower: string) {
    stageId == "achievement" && MatchesAny(lower, OFFTOPIC_HINTS) && !HasDigit(lower)
    && !MatchesAny(lower, IMPACT_WORDS)
  }

  /** The tests `fallbackRoute` makes on the normalized message, each as one flag. */
  datatype Cues = Cues(
    metaLike: bool, questionLike: bool, tooShort: bool, achievementMismatch: bool, topical: bool)

  function CuesOf(norm: string, currentQuestion: string, stageId: string): Cues
  {
    var lower := ToLower(norm);
    Cues(MetaLike(lower), QuestionForm(lower), |norm| < MIN_ANSWER_LENGTH,
         AchievementMismatch(stageId, lower), HasTopicalOverlap(norm, currentQuestion))
  }

  /** The branch chain of `fallbackRoute`: intent, target and reason, by priority meta,
      question form, too short, achievement mismatch, answer. */
  function Classify(k: Cues, explicit: Agent, last: Agent): (c: (Intent, Agent, Reason))
    ensures c.1 != Unknown
    ensures c.0 == Meta <==> k.metaLike
    ensures c.0 in {Clarification, AskClassmate} <==> !k.metaLike && k.questionLike
    ensures c.0 == AskClassmate <==>
      !k.metaLike && k.questionLike && (IsPeer(explicit) || (explicit == Unknown && IsPeer(last)))
    ensures c.0 == OffTopic <==> !k.metaLike && !k.questionLike && (k.tooShort || k.achievementMismatch)
    ensures c.0 == OffTopic ==> c.1 == Teacher
    ensures c.0 != OffTopic && explicit != Unknown ==> c.1 == explicit
    ensures c.0 == AskClassmate && explicit == Unknown ==> c.1 == last
    ensures explicit == Unknown && c.0 != AskClassmate ==> c.1 == Teacher
    ensures c.0 == AskClassmate ==> IsPeer(c.1)
    ensures c.0 == Clarification ==> c.1 in {Teacher, Class}
    ensures c.0 == Answer ==> (c.2 == TopicalAnswer <==> k.topical)
  {
    if k.metaLike then
      (Meta, if explicit == Unknown then Teacher else explicit,
       MetaStyle)
    else if k.questionLike then
      if explicit == Unknown && IsPeer(last) then
        (AskClassmate, last, LastPeerClarification)
      else if IsPeer(explicit) then
        (AskClassmate, explicit, ExplicitPeerQuestion)
      else if explicit == Unknown then
        (Clarification, Teacher, TeacherClarification)
      else
        (Clarification, explicit, QuestionShape)
    else if k.tooShort then
      (OffTopic, Teacher, TooShort)
    else if k.achievementMismatch then
      (OffTopic, Teacher, AchievementOffTopic)
    else
      (Answer, if explicit == Unknown then Teacher else explicit,
       if k.topical then TopicalAnswer else DefaultAnswer)
  }

  /** `fallbackRoute`: classification by priority (meta, then question form, then a too
      short message, then the achievement heuristic, else answer) at a fixed confidence.
      The target is never unknown; a peer is asked only by name or by being the last
      speaker. */
  function FallbackRoute(userText: string, recentTurns: seq<Entry>, currentQuestion: string, stageId: string)
    : (r: RoutingResult)
    ensures var norm := NormalizeMessage(userText);
      var lower := ToLower(norm);
      var explicit := ExplicitTarget(lower);
      var last := AgentOfRole(GetLastNonUserSpeaker(recentTurns));
      && r.normalizedUserMessage == norm
      && (r.intent == Meta <==> MetaLike(lower))
      && (r.intent in {Clarification, AskClassmate} <==> !MetaLike(lower) && QuestionForm(lower))
      && (r.intent == AskClassmate <==>
            !MetaLike(lower) && QuestionForm(lower) && (IsPeer(explicit) || (explicit == Unknown && IsPeer(last))))
      && (r.intent == OffTopic <==>
            !MetaLike(lower) && !QuestionForm(lower) && (|norm| < MIN_ANSWER_LENGTH || AchievementMismatch(stageId, lower)))
      && (r.intent == OffTopic ==> r.targetAgent == Teacher)
      && (r.intent != OffTopic && explicit != Unknown ==> r.targetAgent == explicit)
      && (r.intent == AskClassmate && explicit == Unknown ==> r.targetAgent == last)
      && (explicit == Unknown && r.intent != AskClassmate ==> r.targetAgent == Teacher)
    ensures r.confidence == FALLBACK_CONFIDENCE
    ensures r.targetAgent != Unknown
    ensures r.intent == AskClassmate ==> IsPeer(r.targetAgent)
    ensures r.intent == Clarification ==> r.targetAgent in {Teacher, Class}
    ensures r.recommendedAction == PeerReply ==> IsPeer(r.targetAgent)
    ensures r.shouldAdvanceState <==> r.intent == Answer
    ensures r.addressedTo == r.targetAgent
    ensures r.lastSpeaker == GetLastNonUserSpeaker(recentTurns)
  {
    var norm := NormalizeMessage(userText);
    var explicit := ExplicitTarget(ToLower(norm));
    var last := AgentOfRole(GetLastNonUserSpeaker(recentTurns));
    var c := Classify(CuesOf(norm, currentQuestion, stageId), explicit, last);
    BuildRoutingResult(c.0, c.1, FALLBACK_CONFIDENCE, norm, c.2, currentQuestion, recentTurns)
  }

  /** The current question (through the topical-overlap test) changes only the reason
      text and the fallback for the last teacher question; everything a caller acts on
      is the same. */
  lemma TopicalOverlapOnlyChangesReason(
    userText: string, recentTurns: seq<Entry>, q1: string, q2: string, stageId: string)
    ensures var r1 := FallbackRoute(userText, recentTurns, q1, stageId);
      var r2 := FallbackRoute(userText, recentTurns, q2, stageId);
      && r1.intent == r2.intent && r1.targetAgent == r2.targetAgent
      && r1.recommendedAction == r2.recommendedAction
      && r1.shouldAdvanceState == r2.shouldAdvanceState
      && r1.confidence == r2.confidence && r1.addressedTo == r2.addressedTo
      && r1.normalizedUserMessage == r2.normalizedUserMessage
      && r1.lastSpeaker == r2.lastSpeaker
  {
  }

  /** The history window of `routeUserMessage`: the last six entries of the history
      (none when it is not a list), or, when that is empty, one empty-text entry for a
      given last speaker other than "unknown". */
  function RecentTurns(history: Option<seq<Entry>>, lastSpeaker: string): (r: seq<Entry>)
    ensures |r| <= RECENT_TURNS
    ensures history.Some? && |history.value| > 0 ==> r == LastN(history.value, RECENT_TURNS)
    ensures (history.None? || |history.value| == 0) ==>
      r == if lastSpeaker != "" && lastSpeaker != "unknown" then [Entry(lastSpeaker, "")] else []
  {
    var recent := if history.Some? then LastN(history.value, RECENT_TURNS) else [];
    if lastSpeaker != "" && lastSpeaker != "unknown" && |recent| == 0 then [Entry(lastSpeaker, "")]
    else recent
  }

  /** `routeUserMessage` without a language-model client: the rule-based route over the
      recent history window. */
  function RouteUserMessage(text: string, lastSpeaker: string, currentQuestion: string,
                            history: Option<seq<Entry>>, stageId: string): (r: RoutingResult)
    ensures r.confidence == FALLBACK_CONFIDENCE
    ensures r.targetAgent != Unknown
    ensures r.normalizedUserMessage == NormalizeMessage(text)
    ensures r.shouldAdvanceState <==> r.intent == Answer
    ensures r.lastSpeaker == GetLastNonUserSpeaker(RecentTurns(history, lastSpeaker))
  {
    FallbackRoute(text, RecentTurns(history, lastSpeaker), currentQuestion, stageId)
  }

  /** An unaddressed question goes to the last peer who spoke. */
  lemma QuestionGoesToLastPeer(userText: string, recentTurns: seq<Entry>, currentQuestion: string, stageId: string)
    requires GetLastNonUserSpeaker(recentTurns) in PEERS
    requires var lower := ToLower(NormalizeMessage(userText));
      !MetaLike(lower) && QuestionForm(lower) && ExplicitTarget(lower) == Unknown
    ensures var r := FallbackRoute(userText, recentTurns, currentQuestion, stageId);
      && r.intent == AskClassmate && AgentName(r.targetAgent) == GetLastNonUserSpeaker(recentTurns)
      && r.recommendedAction == PeerReply
  {
  }

  /** With no history, the window holds just the caller-supplied speaker. */
  lemma SeededWindow(history: Option<seq<Entry>>, lastSpeaker: string)
    requires history.None? || |history.value| == 0
    requires lastSpeaker in PEERS
    ensures GetLastNonUserSpeaker(RecentTurns(history, lastSpeaker)) == lastSpeaker
  {
    var recent := RecentTurns(history, lastSpeaker);
    assert recent == [Entry(lastSpeaker, "")];
    assert LastSpeakingAt(recent, 0);
  }

  /** With no history, a caller-supplied peer as last speaker is the peer an unaddressed
      question goes to. */
  lemma RouteFollowsLastPeer(text: string, lastSpeaker: string, currentQuestion: string,
                             history: Option<seq<Entry>>, stageId: string)
    requires history.None? || |history.value| == 0
    requires lastSpeaker in PEERS
    requires var lower := ToLower(NormalizeMessage(text));
      !MetaLike(lower) && QuestionForm(lower) && ExplicitTarget(lower) == Unknown
    ensures var r := RouteUserMessage(text, lastSpeaker, currentQuestion, history, stageId);
      r.intent == AskClassmate && AgentName(r.targetAgent) == lastSpeaker && r.recommendedAction == PeerReply
  {
    SeededWindow(history, lastSpeaker);
    QuestionGoesToLastPeer(text, RecentTurns(history, lastSpeaker), currentQuestion, stageId);
  }
}

=== FILE: text.dfy ===
/** The string operations the server applies to user text, over `seq<char>`:
    JavaScript's white-space class `\s` (the same set `String.prototype.trim` strips),
    `trim`, `replace(/\s+/g, " ")`, `split` into maximal runs, `join(" ")`,
    ASCII lower-casing and the word-boundary keyword test `\b(k1|k2|...)\b`. */
module Text {

  /** JavaScript's `\s`: white space and line terminators. */
  predicate IsSpace(c: char) {
    || c == ' ' || c == '\t' || c == '\n' || c == '\r' || c == '\U{000B}' || c == '\U{000C}'
    || c == '\U{00A0}' || c == '\U{1680}' || '\U{2000}' <= c <= '\U{200A}'
    || c == '\U{2028}' || c == '\U{2029}' || c == '\U{202F}' || c == '\U{205F}'
    || c == '\U{3000}' || c == '\U{FEFF}'
  }

  /** JavaScript's `\d`. */
  predicate IsDigit(c: char) {
    '0' <= c <= '9'
  }

  /** JavaScript's `\w`, the characters a `\b` boundary separates from the rest. */
  predicate IsWordChar(c: char) {
    'a' <= c <= 'z' || 'A' <= c <= 'Z' || IsDigit(c) || c == '_'
  }

  /** The complement of the class `[^a-z0-9]` the question-keyword split uses. */
  predicate IsLowerAlnum(c: char) {
    'a' <= c <= 'z' || IsDigit(c)
  }

  function ToLowerChar(c: char): (d: char)
    ensures 'A' <= c <= 'Z' ==> 'a' <= d <= 'z' && d as int - c as int == 32
    ensures !('A' <= c <= 'Z') ==> d == c
  {
    if 'A' <= c <= 'Z' then (c as int + 32) as char else c
  }

  /** `toLowerCase()`, restricted to the ASCII letters. */
  function ToLower(s: string): (r: string)
    ensures |r| == |s|
    ensures forall i :: 0 <= i < |s| ==> r[i] == ToLowerChar(s[i])
  {
    seq(|s|, i requires 0 <= i < |s| => ToLowerChar(s[i]))
  }

  predicate HasDigit(s: string) {
    exists i :: 0 <= i < |s| && IsDigit(s[i])
  }

  predicate AllSpace(s: string) {
    forall i :: 0 <= i < |s| ==> IsSpace(s[i])
  }

  // ---------------------------------------------------------------------------
  // trim

  function TrimStart(s: string): (r: string)
    ensures |r| <= |s| && r == s[|s| - |r|..]
    ensures |r| > 0 ==> !IsSpace(r[0])
    ensures |r| == 0 <==> AllSpace(s)
    ensures |s| > 0 && IsSpace(s[0]) ==> |r| < |s|
  {
    if |s| > 0 && IsSpace(s[0]) then
      var r := TrimStart(s[1..]);
      assert forall i :: 1 <= i < |s| ==> s[i] == s[1..][i - 1];
      r
    else s
  }

  /** Everything `TrimStart` drops is white space. */
  lemma {:induction false} TrimStartDropsSpace(s: string, i: int)
    requires 0 <= i < |s| - |TrimStart(s)|
    ensures IsSpace(s[i])
    decreases |s|
  {
    if !IsSpace(s[0]) {
      assert false;
    } else if i > 0 {
      TrimStartDropsSpace(s[1..], i - 1);
      assert s[1..][i - 1] == s[i];
    }
  }

  function TrimEnd(s: string): (r: string)
    ensures |r| <= |s| && r == s[..|r|]
    ensures |r| > 0 ==> !IsSpace(r[|r| - 1])
    ensures forall i :: |r| <= i < |s| ==> IsSpace(s[i])
  {
    if |s| > 0 && IsSpace(s[|s| - 1]) then TrimEnd(s[..|s| - 1]) else s
  }

  /** `String.prototype.trim`: the text between the leading and the trailing white space. */
  function Trim(s: string): (r: string)
    ensures |r| <= |s|
    ensures |r| <= |TrimStart(s)| && r == TrimStart(s)[..|r|]
    ensures |r| > 0 ==> !IsSpace(r[0]) && !IsSpace(r[|r| - 1])
    ensures |r| == 0 <==> AllSpace(s)
  {
    var t := TrimStart(s);
    var r := TrimEnd(t);
    assert |r| > 0 ==> r[0] == t[0];
    assert |t| > 0 ==> t[0] == s[|s| - |t|] && !IsSpace(s[|s| - |t|]);
    assert |r| == 0 ==> |t| == 0;
    r
  }

  /** A prefix of a suffix is a middle slice. */
  lemma PrefixOfSuffix(s: string, a: int, n: int)
    requires 0 <= a && 0 <= n && a + n <= |s|
    ensures s[a..][..n] == s[a..a + n]
  {
  }

  /** Indexing a suffix reads the original text further on. */
  lemma SuffixIndex(s: string, a: int, i: int)
    requires 0 <= a <= i < |s|
    ensures s[a..][i - a] == s[i]
  {
  }

  /** The trimmed text is the slice of `s` after its leading white space. */
  lemma TrimIsSlice(s: string)
    ensures var a := |s| - |TrimStart(s)|;
      a + |Trim(s)| <= |s| && Trim(s) == s[a..a + |Trim(s)|]
  {
    var t := TrimStart(s);
    var r := Trim(s);
    var a := |s| - |t|;
    assert t == s[a..];
    assert r == t[..|r|];
    PrefixOfSuffix(s, a, |r|);
  }

  /** Everything after the trimmed text is white space. */
  lemma TrimDropsTrailingSpace(s: string, i: int)
    requires |s| - |TrimStart(s)| + |Trim(s)| <= i < |s|
    ensures IsSpace(s[i])
  {
    var t := TrimStart(s);
    assert Trim(s) == TrimEnd(t);
    SuffixIndex(s, |s| - |t|, i);
  }

  /** Trimming removes white space only: the result is the slice of `s` that starts
      after the leading white space, and everything outside it is white space. */
  lemma TrimRemovesOnlySpace(s: string)
    ensures var a := |s| - |TrimStart(s)|; var r := Trim(s);
      && a + |r| <= |s| && r == s[a..a + |r|]
      && (forall i :: 0 <= i < a ==> IsSpace(s[i]))
      && (forall i :: a + |r| <= i < |s| ==> IsSpace(s[i]))
  {
    TrimIsSlice(s);
    forall i | 0 <= i < |s| - |TrimStart(s)| ensures IsSpace(s[i]) {
      TrimStartDropsSpace(s, i);
    }
    forall i | |s| - |TrimStart(s)| + |Trim(s)| <= i < |s| ensures IsSpace(s[i]) {
      TrimDropsTrailingSpace(s, i);
    }
  }

  /** Trimming twice is trimming once. */
  lemma TrimIdempotent(s: string)
    ensures Trim(Trim(s)) == Trim(s)
  {
  }

  // ---------------------------------------------------------------------------
  // replace(/\s+/g, " ")

  /** Every white-space character is a plain space, and none follows another. */
  predicate Collapsed(t: string) {
    forall i :: 0 <= i < |t| ==> BlankAt(t, i)
  }

  /** Position `i` is not white space, or is a plain space with no white space after it. */
  predicate BlankAt(t: string, i: int)
    requires 0 <= i < |t|
  {
    IsSpace(t[i]) ==> t[i] == ' ' && (i + 1 == |t| || !IsSpace(t[i + 1]))
  }

  /** The shape of a message after `replace(/\s+/g, " ").trim()`: collapsed, and with
      no white space at either end. */
  predicate Normalized(t: string) {
    Collapsed(t) && (|t| > 0 ==> !IsSpace(t[0]) && !IsSpace(t[|t| - 1]))
  }

  /** `s.replace(/\s+/g, " ")`: every maximal run of white space becomes one space. */
  function CollapseSpaces(s: string): (r: string)
    ensures |r| <= |s|
    ensures |r| == 0 <==> |s| == 0
    ensures |r| > 0 ==> (IsSpace(r[0]) <==> IsSpace(s[0]))
    ensures Collapsed(r)
    decreases |s|
  {
    if |s| == 0 then []
    else
      var rest := if IsSpace(s[0]) then CollapseSpaces(TrimStart(s)) else CollapseSpaces(s[1..]);
      var r := [if IsSpace(s[0]) then ' ' else s[0]] + rest;
      assert Collapsed(r) by {
        forall i | 0 <= i < |r| ensures BlankAt(r, i) {
          if i > 0 {
            assert BlankAt(rest, i - 1);
            assert r[i] == rest[i - 1];
            assert i + 1 < |r| ==> r[i + 1] == rest[i];
          }
        }
      }
      r
  }

  lemma CollapsedSlice(t: string, a: int, b: int)
    requires 0 <= a <= b <= |t| && Collapsed(t)
    ensures Collapsed(t[a..b])
  {
    var u := t[a..b];
    forall i | 0 <= i < |u| ensures BlankAt(u, i) {
      assert BlankAt(t, a + i);
      assert u[i] == t[a + i];
      assert i + 1 < |u| ==> u[i + 1] == t[a + i + 1];
    }
  }

  /** Trimming a collapsed text leaves a normalized one. */
  lemma TrimCollapsed(t: string)
    requires Collapsed(t)
    ensures Normalized(Trim(t))
  {
    var u := TrimStart(t);
    CollapsedSlice(t, |t| - |u|, |t|);
    assert t[|t| - |u|..|t|] == u;
    var r := TrimEnd(u);
    CollapsedSlice(u, 0, |r|);
    assert u[0..|r|] == r;
    assert Trim(t) == r;
  }

  // ---------------------------------------------------------------------------
  // split into maximal runs, join(" ")

  /** The two character classes the server splits on: `\s+` and `[^a-z0-9]+`. */
  datatype Separator = WhiteSpace | NonLowerAlnum

  predicate IsSep(sep: Separator, c: char) {
    match sep
    case WhiteSpace => IsSpace(c)
    case NonLowerAlnum => !IsLowerAlnum(c)
  }

  predicate NoSep(w: string, sep: Separator) {
    forall i :: 0 <= i < |w| ==> !IsSep(sep, w[i])
  }

  /** The longest prefix of `s` that holds no separator. */
  function Token(s: string, sep: Separator): (w: string)
    ensures |w| <= |s| && w == s[..|w|]
    ensures NoSep(w, sep)
    ensures |w| < |s| ==> IsSep(sep, s[|w|])
    ensures |s| > 0 && !IsSep(sep, s[0]) ==> |w| > 0
  {
    if |s| == 0 || IsSep(sep, s[0]) then [] else [s[0]] + Token(s[1..], sep)
  }

  /** `s.split(re).filter(Boolean)` where `re` matches runs of separators: the maximal
      separator-free pieces of `s`, in order. */
  function Split(s: string, sep: Separator): (r: seq<string>)
    ensures forall i :: 0 <= i < |r| ==> |r[i]| > 0 && NoSep(r[i], sep)
    ensures |r| == 0 <==> forall i :: 0 <= i < |s| ==> IsSep(sep, s[i])
    decreases |s|
  {
    if |s| == 0 then []
    else if IsSep(sep, s[0]) then
      var r := Split(s[1..], sep);
      assert (forall i :: 0 <= i < |s| ==> IsSep(sep, s[i])) <==> (forall i :: 0 <= i < |s| - 1 ==> IsSep(sep, s[1..][i]));
      r
    else
      var w := Token(s, sep);
      [w] + Split(s[|w|..], sep)
  }

  /** A list of words: each non-empty and free of white space. */
  predicate AreWords(ws: seq<string>) {
    forall i :: 0 <= i < |ws| ==> |ws[i]| > 0 && NoSep(ws[i], WhiteSpace)
  }

  /** `s.trim().split(/\s+/).filter(Boolean)`: the white-space separated words. */
  function Words(s: string): (r: seq<string>)
    ensures AreWords(r)
    ensures |r| == 0 <==> AllSpace(s)
  {
    Split(s, WhiteSpace)
  }

  /** `words.join(" ")`. */
  function Join(ws: seq<string>): string
  {
    if |ws| == 0 then ""
    else if |ws| == 1 then ws[0]
    else ws[0] + " " + Join(ws[1..])
  }

  /** Every prefix of a list of words is one. */
  lemma AreWordsPrefix(ws: seq<string>, n: int)
    requires AreWords(ws) && 0 <= n <= |ws|
    ensures AreWords(ws[..n])
  {
  }

  lemma {:induction false} TokenAppend(x: string, y: string, sep: Separator)
    requires |Token(x, sep)| < |x| || |y| == 0 || IsSep(sep, y[0])
    ensures Token(x + y, sep) == Token(x, sep)
    decreases |x|
  {
    if |x| == 0 {
      assert x + y == y;
    } else if IsSep(sep, x[0]) {
    } else {
      assert (x + y)[1..] == x[1..] + y;
      TokenAppend(x[1..], y, sep);
    }
  }

  /** A separator-free word is its own first token. */
  lemma TokenOfWord(w: string, sep: Separator)
    requires NoSep(w, sep)
    ensures Token(w, sep) == w
  {
  }

  /** A lone word splits into itself. */
  lemma SplitWord(w: string)
    requires |w| > 0 && NoSep(w, WhiteSpace)
    ensures Split(w, WhiteSpace) == [w]
  {
    TokenOfWord(w, WhiteSpace);
    assert w[|w|..] == [];
  }

  /** A word, one space and a tail split into the word followed by the tail's words. */
  lemma SplitWordSpace(w: string, tail: string)
    requires |w| > 0 && NoSep(w, WhiteSpace)
    ensures Split(w + " " + tail, WhiteSpace) == [w] + Split(tail, WhiteSpace)
  {
    var rest := " " + tail;
    var s := w + rest;
    assert w + " " + tail == s;
    TokenOfWord(w, WhiteSpace);
    TokenAppend(w, rest, WhiteSpace);
    assert s[0] == w[0];
    assert s[|w|..] == rest;
    assert Split(s, WhiteSpace) == [w] + Split(rest, WhiteSpace);
    assert rest[1..] == tail;
  }

  /** Splitting the words back out of their join gives the words again. */
  lemma {:induction false} WordsOfJoin(ws: seq<string>)
    requires AreWords(ws)
    ensures Words(Join(ws)) == ws
    decreases |ws|
  {
    if |ws| == 1 {
      SplitWord(ws[0]);
    } else if |ws| > 1 {
      SplitWordSpace(ws[0], Join(ws[1..]));
      WordsOfJoin(ws[1..]);
      assert ws == [ws[0]] + ws[1..];
    }
  }

  /** Joining words with single spaces gives a normalized text: one plain space between
      neighbouring words and none at the ends. */
  lemma {:induction false} JoinNormalized(ws: seq<string>)
    requires AreWords(ws)
    ensures Normalized(Join(ws))
    ensures |ws| > 0 ==> |Join(ws)| > 0
    decreases |ws|
  {
    if |ws| == 1 {
      assert Join(ws) == ws[0];
      assert forall i :: 0 <= i < |ws[0]| ==> !IsSpace(ws[0][i]);
    } else if |ws| > 1 {
      var w := ws[0];
      var j := Join(ws[1..]);
      JoinNormalized(ws[1..]);
      var t := w + " " + j;
      assert Join(ws) == t;
      forall i | 0 <= i < |t| ensures BlankAt(t, i) {
        if i < |w| {
          assert t[i] == w[i] && !IsSpace(w[i]);
        } else if i == |w| {
          assert t[i + 1] == j[0];
        } else {
          assert BlankAt(j, i - |w| - 1);
          assert t[i] == j[i - |w| - 1];
          assert i + 1 < |t| ==> t[i + 1] == j[i - |w|];
        }
      }
      assert t[0] == w[0] && t[|t| - 1] == j[|j| - 1];
    }
  }

  lemma {:induction false} SplitAllSep(s: string, sep: Separator)
    requires forall i :: 0 <= i < |s| ==> IsSep(sep, s[i])
    ensures Split(s, sep) == []
  {
  }

  /** White space added at the end of a text adds no words. */
  lemma {:induction false} SplitAppendSeps(x: string, sp: string, sep: Separator)
    requires forall i :: 0 <= i < |sp| ==> IsSep(sep, sp[i])
    ensures Split(x + sp, sep) == Split(x, sep)
    decreases |x|
  {
    if |x| == 0 {
      assert x + sp == sp;
      SplitAllSep(sp, sep);
    } else if IsSep(sep, x[0]) {
      assert (x + sp)[0] == x[0] && (x + sp)[1..] == x[1..] + sp;
      SplitAppendSeps(x[1..], sp, sep);
    } else {
      var w := Token(x, sep);
      TokenAppend(x, sp, sep);
      assert (x + sp)[0] == x[0] && (x + sp)[|w|..] == x[|w|..] + sp;
      SplitAppendSeps(x[|w|..], sp, sep);
      assert Split(x + sp, sep) == [w] + Split(x[|w|..] + sp, sep);
    }
  }

  lemma {:induction false} WordsTrimStart(s: string)
    ensures Words(TrimStart(s)) == Words(s)
    decreases |s|
  {
    if |s| > 0 && IsSpace(s[0]) {
      WordsTrimStart(s[1..]);
    }
  }

  /** Trailing white space carries no words. */
  lemma WordsTrimEnd(t: string)
    ensures Words(TrimEnd(t)) == Words(t)
  {
    var r := TrimEnd(t);
    var sp := t[|r|..];
    assert t == r + sp;
    forall i | 0 <= i < |sp| ensures IsSep(WhiteSpace, sp[i]) {
      assert sp[i] == t[|r| + i];
    }
    SplitAppendSeps(r, sp, WhiteSpace);
  }

  /** Trimming a text does not change its words. */
  lemma WordsTrim(s: string)
    ensures Words(Trim(s)) == Words(s)
  {
    WordsTrimStart(s);
    WordsTrimEnd(TrimStart(s));
    assert Trim(s) == TrimEnd(TrimStart(s));
  }

  /** The words of a text that starts with the non-space `c`, in terms of the words of the rest. */
  lemma WordsCons(c: char, x: string)
    requires !IsSpace(c)
    ensures Words([c] + x) ==
      if |x| == 0 || IsSpace(x[0]) then [[c]] + Words(x)
      else [[c] + Words(x)[0]] + Words(x)[1..]
  {
    var s := [c] + x;
    assert s[1..] == x;
    var w := Token(x, WhiteSpace);
    assert Token(s, WhiteSpace) == [c] + w;
    assert s[|[c] + w|..] == x[|w|..];
  }

  /** Two texts with the same words and the same kind of first character keep the same
      words behind a common non-space first character. */
  lemma WordsConsSame(c: char, x: string, y: string)
    requires !IsSpace(c) && Words(x) == Words(y)
    requires |x| == 0 <==> |y| == 0
    requires |x| > 0 ==> (IsSpace(x[0]) <==> IsSpace(y[0]))
    ensures Words([c] + x) == Words([c] + y)
  {
    WordsCons(c, x);
    WordsCons(c, y);
  }

  /** A leading space adds no words. */
  lemma WordsSpaceCons(x: string)
    ensures Words([' '] + x) == Words(x)
  {
    assert ([' '] + x)[1..] == x;
  }

  /** Collapsing white space keeps every word. */
  lemma {:induction false} WordsCollapse(s: string)
    ensures Words(CollapseSpaces(s)) == Words(s)
    decreases |s|
  {
    if |s| == 0 {
    } else if IsSpace(s[0]) {
      var t := TrimStart(s);
      WordsCollapse(t);
      WordsTrimStart(s);
      WordsSpaceCons(CollapseSpaces(t));
    } else {
      WordsCollapse(s[1..]);
      WordsConsSame(s[0], s[1..], CollapseSpaces(s[1..]));
      assert s == [s[0]] + s[1..];
    }
  }

  /** Past the first word and the one separator after it, the remaining words. */
  lemma WordsAfterFirst(t: string, w: string)
    requires |t| > 0 && !IsSpace(t[0]) && w == Token(t, WhiteSpace) && |w| < |t|
    ensures Words(t) == [w] + Words(t[|w| + 1..])
  {
    var u := t[|w|..];
    assert Words(t) == [w] + Split(u, WhiteSpace);
    assert IsSep(WhiteSpace, u[0]) && u[1..] == t[|w| + 1..];
  }

  /** In a collapsed text that does not end in white space, a white-space character is
      a single plain space followed by a non-space. */
  lemma SpaceBeforeWord(t: string, k: int)
    requires Collapsed(t) && 0 <= k < |t| && IsSpace(t[k]) && !IsSpace(t[|t| - 1])
    ensures k + 1 < |t| && t[k] == ' ' && !IsSpace(t[k + 1])
  {
    assert BlankAt(t, k);
  }

  /** A suffix of a normalized text that starts at a non-space is normalized. */
  lemma NormalizedSuffix(t: string, a: int)
    requires Normalized(t) && 0 <= a < |t| && !IsSpace(t[a])
    ensures Normalized(t[a..])
  {
    CollapsedSlice(t, a, |t|);
    assert t[a..|t|] == t[a..];
  }

  /** A normalized text that is more than one word: its first word, one space, and a
      normalized rest. */
  lemma NormalizedSplitFirst(t: string, w: string)
    requires Normalized(t) && |t| > 0 && w == Token(t, WhiteSpace) && |w| < |t|
    ensures |w| + 1 < |t| && t[|w|] == ' '
    ensures Normalized(t[|w| + 1..])
  {
    SpaceBeforeWord(t, |w|);
    NormalizedSuffix(t, |w| + 1);
  }

  /** A normalized text is the join of its own words. */
  lemma {:induction false} JoinWordsOfNormalized(t: string)
    requires Normalized(t)
    ensures Join(Words(t)) == t
    decreases |t|
  {
    if |t| > 0 {
      var w := Token(t, WhiteSpace);
      if |w| == |t| {
        assert t[|w|..] == [];
        assert Words(t) == [w] + Split([], WhiteSpace);
      } else {
        NormalizedSplitFirst(t, w);
        WordsAfterFirst(t, w);
        var t' := t[|w| + 1..];
        JoinWordsOfNormalized(t');
        var ws' := Words(t');
        assert |ws'| > 0;
        assert ([w] + ws')[1..] == ws';
        assert t == t[..|w|] + [t[|w|]] + t';
      }
    }
  }

  // ---------------------------------------------------------------------------
  // substring and word-boundary keyword tests

  predicate SubstringAt(s: string, i: int, k: string) {
    0 <= i && i + |k| <= |s| && s[i..i + |k|] == k
  }

  /** `s.includes(k)`. */
  predicate Contains(s: string, k: string) {
    exists i :: 0 <= i <= |s| && SubstringAt(s, i, k)
  }

  /** `k` occurs at position `i` of `s` with a `\b` boundary on both sides
      (every keyword the server tests starts and ends with a word character). */
  predicate WordAt(s: string, i: int, k: string) {
    && SubstringAt(s, i, k)
    && (i == 0 || !IsWordChar(s[i - 1]))
    && (i + |k| == |s| || !IsWordChar(s[i + |k|]))
  }

  /** `/\bk\b/.test(s)`. */
  predicate ContainsWord(s: string, k: string) {
    exists i :: 0 <= i <= |s| && WordAt(s, i, k)
  }

  /** `/\b(k1|k2|...)\b/.test(s)` for an already lower-cased `s`. */
  predicate MatchesAny(s: string, ks: seq<string>) {
    |ks| > 0 && (ContainsWord(s, ks[0]) || MatchesAny(s, ks[1..]))
  }

  /** A keyword list matches exactly when one of its keywords occurs as a word. */
  lemma {:induction false} MatchesAnyIff(s: string, ks: seq<string>)
    ensures MatchesAny(s, ks) <==> exists j :: 0 <= j < |ks| && ContainsWord(s, ks[j])
  {
    if |ks| > 0 {
      MatchesAnyIff(s, ks[1..]);
      assert forall j :: 1 <= j < |ks| ==> ks[j] == ks[1..][j - 1];
    }
  }

  /** `s.endsWith(p)`; `p <= s` is `s.startsWith(p)`. */
  predicate EndsWith(s: string, p: string) {
    |p| <= |s| && s[|s| - |p|..] == p
  }

  /** A concatenation starts with its first part and ends with its second. */
  lemma ConcatAffixes(a: string, b: string)
    ensures a <= a + b && EndsWith(a + b, b)
  {
    assert (a + b)[..|a|] == a;
    assert (a + b)[|a|..] == b;
  }

  lemma ConcatAffixes3(a: string, b: string, c: string)
    ensures a <= a + b + c && EndsWith(a + b + c, c)
  {
    assert (a + b + c)[..|a|] == a;
    assert (a + b + c)[|a + b|..] == c;
  }

  /** `/^(k1|k2|...)\b/.test(s)` for an already lower-cased `s`. */
  predicate StartsWithAny(s: string, ks: seq<string>) {
    exists j :: 0 <= j < |ks| && WordAt(s, 0, ks[j])
  }
}

=== FILE: turn_controller.dfy ===
/** The session state machine of `server/src/turnController.js`: session normalization,
    the per-stage relevance rules, and the start, user-turn and next-turn transitions.
    A transition takes a session and returns the new session with the turns it emits;
    the optional language-model `analysis` of a user turn is a parameter. */
module TurnController {
  import opened Basics
  import opened Text
  import opened Conversation
  import opened CoachEngine
  import opened MockEngine

  const IMPACT_KEYWORDS: seq<string> := [
    "improved", "reduced", "increased", "faster", "faster than", "boosted", "grew", "raised",
    "cut", "saved", "impact", "result", "outcome"
  ]
  const PROJECT_KEYWORDS: seq<string> := [
    "project", "app", "system", "platform", "tool", "feature", "task", "assignment", "build",
    "built", "developed"
  ]
  const ROLE_KEYWORDS: seq<string> := [
    "i", "my role", "led", "owner", "responsible", "implemented", "managed", "designed"
  ]
  const RESULT_KEYWORDS: seq<string> := [
    "result", "outcome", "impact", "improved", "reduced", "increased", "delivered", "achieved", "launched"
  ]
  const CHALLENGE_KEYWORDS: seq<string> := ["challenge", "conflict", "issue", "problem", "blocker", "difficult"]
  const RESOLUTION_KEYWORDS: seq<string> := [
    "resolved", "handled", "fixed", "addressed", "solved", "improved", "communicated"
  ]
  const WHY_KEYWORDS: seq<string> := [
    "fit", "skills", "experience", "value", "impact", "team", "role", "internship", "contribute"
  ]
  const CLOSING_KEYWORDS: seq<string> := [
    "thank", "excited", "ready", "contribute", "value", "opportunity", "closing", "summary"
  ]
  const INTRO_KEYWORDS: seq<string> := [
    "student", "internship", "major", "study", "background", "experience", "developer", "engineer", "role"
  ]

  const INTRO_MIN_LENGTH: int := 20
  const WHY_MIN_LENGTH: int := 25
  const CLOSING_MIN_LENGTH: int := 20

  /** What a user turn records when the answer is blank. */
  const NO_ANSWER: string := "(No answer provided)"
  /** The intent a user turn assumes when no analysis names one. */
  const ANSWER: string := "ANSWER"

  // ---------------------------------------------------------------------------
  // Stage rules

  // The issue each stage check reports when it fails.
  const INTRO_TOO_SHORT: string := "Answer is too short for an introduction."
  const INTRO_OFF_TOPIC: string := "Mention your background, current role, or internship intent."
  const ACHIEVEMENT_NO_METRIC: string := "Include at least one number or measurable metric."
  const ACHIEVEMENT_NO_IMPACT: string := "State the impact or result using outcome words."
  const PROJECT_NO_PROJECT: string := "Mention a concrete project or task."
  const PROJECT_NO_ROLE: string := "Explain your role or specific action."
  const PROJECT_NO_RESULT: string := "Include the result or impact."
  const CHALLENGE_NO_CHALLENGE: string := "Describe the challenge or conflict clearly."
  const CHALLENGE_NO_RESOLUTION: string := "Explain how you resolved the challenge."
  const WHY_NO_FIT: string := "Link your fit and strengths to this internship."
  const WHY_TOO_SHORT: string := "Add one concrete reason you are a strong fit."
  const CLOSING_NO_VALUE: string := "End with a clear closing value statement."
  const CLOSING_TOO_SHORT: string := "Closing pitch is too short."

  /** One requirement of a stage and the issue reported when it fails. */
  datatype Check = Check(ok: bool, issue: string)

  /** The issues of the failed checks, in check order. */
  function Failures(checks: seq<Check>): (r: seq<string>)
    ensures |r| <= |checks|
    ensures |r| == 0 <==> forall i :: 0 <= i < |checks| ==> checks[i].ok
    ensures forall i :: 0 <= i < |checks| && !checks[i].ok ==> checks[i].issue in r
    ensures forall w :: w in r ==> exists i :: 0 <= i < |checks| && !checks[i].ok && checks[i].issue == w
  {
    if |checks| == 0 then []
    else
      var rest := Failures(checks[1..]);
      assert forall i :: 1 <= i < |checks| ==> checks[i] == checks[1..][i - 1];
      (if checks[0].ok then [] else [checks[0].issue]) + rest
  }

  /** How many checks hold. */
  function HitCount(checks: seq<Check>): (n: nat)
    ensures n <= |checks|
  {
    if |checks| == 0 then 0 else (if checks[0].ok then 1 else 0) + HitCount(checks[1..])
  }

  /** `normalizeText`: trimmed and lower-cased. */
  function NormalizeText(text: string): string
  {
    ToLower(Trim(text))
  }

  function IntroChecks(text: string): seq<Check>
  {
    [Check(|text| >= INTRO_MIN_LENGTH, INTRO_TOO_SHORT),
     Check(MatchesAny(text, INTRO_KEYWORDS), INTRO_OFF_TOPIC)]
  }

  function AchievementChecks(text: string): seq<Check>
  {
    [Check(HasDigit(text), ACHIEVEMENT_NO_METRIC),
     Check(MatchesAny(text, IMPACT_KEYWORDS), ACHIEVEMENT_NO_IMPACT)]
  }

  function ProjectChecks(text: string): seq<Check>
  {
    [Check(MatchesAny(text, PROJECT_KEYWORDS), PROJECT_NO_PROJECT),
     Check(MatchesAny(text, ROLE_KEYWORDS), PROJECT_NO_ROLE),
     Check(MatchesAny(text, RESULT_KEYWORDS), PROJECT_NO_RESULT)]
  }

  function ChallengeChecks(text: string): seq<Check>
  {
    [Check(MatchesAny(text, CHALLENGE_KEYWORDS), CHALLENGE_NO_CHALLENGE),
     Check(MatchesAny(text, RESOLUTION_KEYWORDS), CHALLENGE_NO_RESOLUTION)]
  }

  function WhyChecks(text: string): seq<Check>
  {
    [Check(MatchesAny(text, WHY_KEYWORDS), WHY_NO_FIT),
     Check(|text| >= WHY_MIN_LENGTH, WHY_TOO_SHORT)]
  }

  function ClosingChecks(text: string): seq<Check>
  {
    [Check(MatchesAny(text, CLOSING_KEYWORDS), CLOSING_NO_VALUE),
     Check(|text| >= CLOSING_MIN_LENGTH, CLOSING_TOO_SHORT)]
  }

  /** `evaluateProject`: no issues once two of the three checks hold, otherwise the
      issue of every failed check. */
  function EvaluateProject(text: string): (issues: seq<string>)
    ensures var checks := ProjectChecks(text);
      && (|issues| == 0 <==> HitCount(checks) >= 2)
      && (HitCount(checks) < 2 ==>
            forall i :: 0 <= i < |checks| ==> (checks[i].issue in issues <==> !checks[i].ok))
  {
    var checks := ProjectChecks(text);
    if HitCount(checks) >= 2 then []
    else
      assert HitCount(checks) == HitCount(checks[1..]) + (if checks[0].ok then 1 else 0);
      assert checks[0].issue != checks[1].issue && checks[0].issue != checks[2].issue
        && checks[1].issue != checks[2].issue;
      Failures(checks)
  }

  /** The issues `evaluate<Stage>` reports for a (normalized) answer. */
  function StageIssues(id: StageId, text: string): seq<string>
  {
    match id
    case Intro => Failures(IntroChecks(text))
    case Achievement => Failures(AchievementChecks(text))
    case Project => EvaluateProject(text)
    case Challenge => Failures(ChallengeChecks(text))
    case Why => Failures(WhyChecks(text))
    case Closing => Failures(ClosingChecks(text))
  }

  /** What each stage asks of an answer, stated directly. */
  predicate StageRequirementMet(id: StageId, text: string) {
    match id
    case Intro => |text| >= INTRO_MIN_LENGTH && MatchesAny(text, INTRO_KEYWORDS)
    case Achievement => HasDigit(text) && MatchesAny(text, IMPACT_KEYWORDS)
    case Project =>
      var p := MatchesAny(text, PROJECT_KEYWORDS);
      var r := MatchesAny(text, ROLE_KEYWORDS);
      var s := MatchesAny(text, RESULT_KEYWORDS);
      (p && r) || (p && s) || (r && s)
    case Challenge => MatchesAny(text, CHALLENGE_KEYWORDS) && MatchesAny(text, RESOLUTION_KEYWORDS)
    case Why => MatchesAny(text, WHY_KEYWORDS) && |text| >= WHY_MIN_LENGTH
    case Closing => MatchesAny(text, CLOSING_KEYWORDS) && |text| >= CLOSING_MIN_LENGTH
  }

  /** Two checks all hold when each does. */
  lemma BothOk(c: seq<Check>)
    requires |c| == 2
    ensures (forall i :: 0 <= i < |c| ==> c[i].ok) <==> c[0].ok && c[1].ok
  {
  }

  /** A stage reports no issues exactly when its requirement is met. */
  lemma {:induction false} StageIssuesEmptyIff(id: StageId, text: string)
    ensures |StageIssues(id, text)| == 0 <==> StageRequirementMet(id, text)
  {
    match id
    case Intro => BothOk(IntroChecks(text));
    case Achievement => BothOk(AchievementChecks(text));
    case Challenge => BothOk(ChallengeChecks(text));
    case Why => BothOk(WhyChecks(text));
    case Closing => BothOk(ClosingChecks(text));
    case Project =>
      var checks := ProjectChecks(text);
      assert HitCount(checks[2..]) == (if checks[2].ok then 1 else 0) by {
        assert checks[2..][1..] == [];
      }
      assert HitCount(checks[1..]) == (if checks[1].ok then 1 else 0) + HitCount(checks[2..]) by {
        assert checks[1..][1..] == checks[2..];
      }
  }

  /** The stage a wire id names, if any. */
  function ParseStage(stageId: string): (r: Option<StageId>)
    ensures r.Some? ==> StageName(r.value) == stageId
    ensures forall id :: StageName(id) == stageId ==> r == Some(id)
  {
    if stageId == "intro" then Some(Intro)
    else if stageId == "achievement" then Some(Achievement)
    else if stageId == "project" then Some(Project)
    else if stageId == "challenge" then Some(Challenge)
    else if stageId == "why" then Some(Why)
    else if stageId == "closing" then Some(Closing)
    else None
  }

  /** The catalog index `stageRequirementHint` looks a stage id up by; unknown ids read
      the last stage. */
  function StageIndexOf(stageId: string): (i: int)
    ensures 0 <= i <= LAST_STAGE
    ensures ParseStage(stageId).Some? ==> STAGE_ORDER[i] == ParseStage(stageId).value
    ensures ParseStage(stageId).None? ==> i == LAST_STAGE
  {
    if stageId == "intro" then 0
    else if stageId == "achievement" then 1
    else if stageId == "project" then 2
    else if stageId == "challenge" then 3
    else if stageId == "why" then 4
    else 5
  }

  /** Looking a stage's id up gives back the stage: the index mapping inverts the catalog. */
  lemma StageIndexRoundTrip(index: int)
    ensures StageIndexOf(StageName(StageByIndex(index).id)) == ClampQuestionIndex(index)
  {
  }

  /** `stageRequirementHint`. */
  function StageRequirementHint(stageId: string): string
  {
    StageByIndex(StageIndexOf(stageId)).requirementHint
  }

  datatype QuestionAction = Retry | Advance

  /** The tip prefix of a relevant answer; an irrelevant one gets `OFFTOPIC_TIP`. */
  const RELEVANT_TIP: string := "Strong direction. Next, keep focus on "

  /** The result of `evaluateAnswer`. */
  datatype AnswerEvaluation = AnswerEvaluation(
    stage: string, isRelevant: bool, issues: seq<string>, scoreDeltas: Deltas, tip: string,
    nextQuestionAction: QuestionAction)

  /** The catalog index of a stage. */
  function IndexOf(id: StageId): (i: int)
    ensures 0 <= i <= LAST_STAGE && STAGE_ORDER[i] == id
  {
    match id
    case Intro => 0
    case Achievement => 1
    case Project => 2
    case Challenge => 3
    case Why => 4
    case Closing => 5
  }

  /** The evaluation for a list of issues: relevant when it is empty. */
  function Judge(stageId: string, issues: seq<string>, vocabularyBoost: int, hint: string): AnswerEvaluation
  {
    if |issues| > 0 then
      AnswerEvaluation(stageId, false, issues, FullDeltas(-1, 0, -2), OFFTOPIC_TIP + hint + ".", Retry)
    else
      AnswerEvaluation(stageId, true, [], FullDeltas(2, vocabularyBoost, 2), RELEVANT_TIP + hint + ".", Advance)
  }

  /** `evaluateAnswer` for a stage of the catalog: the stage's issues for the normalized
      answer; relevant when there are none, with the reward or penalty deltas and the
      retry/advance decision. A number in an achievement earns extra vocabulary. */
  function EvaluateStage(id: StageId, userText: string): (e: AnswerEvaluation)
    ensures e.stage == StageName(id)
    ensures e.isRelevant <==> |e.issues| == 0
    ensures e.isRelevant <==> StageRequirementMet(id, NormalizeText(userText))
    ensures !e.isRelevant ==> e.scoreDeltas == FullDeltas(-1, 0, -2) && e.nextQuestionAction == Retry
    ensures e.isRelevant ==>
      && e.nextQuestionAction == Advance
      && e.scoreDeltas == FullDeltas(2, if id == Achievement && HasDigit(NormalizeText(userText)) then 2 else 1, 2)
  {
    var text := NormalizeText(userText);
    StageIssuesEmptyIff(id, text);
    Judge(StageName(id), StageIssues(id, text), if id == Achievement && HasDigit(text) then 2 else 1,
      StageByIndex(IndexOf(id)).requirementHint)
  }

  /** `evaluateAnswer`: an id naming a stage is evaluated by that stage's rules; any other
      id has no rules, so every answer is relevant to it. */
  function EvaluateAnswer(stageId: string, userText: string): (e: AnswerEvaluation)
    ensures e.stage == stageId
    ensures e.isRelevant <==>
      ParseStage(stageId).None? || StageRequirementMet(ParseStage(stageId).value, NormalizeText(userText))
    ensures ParseStage(stageId).Some? ==> e == EvaluateStage(ParseStage(stageId).value, userText)
    ensures ParseStage(stageId).None? ==>
      e.issues == [] && e.scoreDeltas == FullDeltas(2, 1, 2) && e.nextQuestionAction == Advance
  {
    match ParseStage(stageId)
    case Some(id) => EvaluateStage(id, userText)
    case None => Judge(stageId, [], 1, StageRequirementHint(stageId))
  }

  // ---------------------------------------------------------------------------
  // Sessions

  /** A session as the controller keeps it between requests. */
  datatype Session = Session(
    id: string, stageIndex: int, turnIndex: int, speakerRotationIndex: int,
    history: seq<Entry>, coach: Coach)

  /** A session as the client sends it back: each field may be missing or not an integer
      or array (`None`); an empty id counts as missing, as `raw.id || …` treats it. */
  datatype RawSession = RawSession(
    id: string, stageIndex: Option<int>, turnIndex: Option<int>,
    speakerRotationIndex: Option<int>, history: Option<seq<Entry>>, coach: Option<Coach>)

  /** The shape `normalizeSession` guarantees. */
  predicate Valid(s: Session) {
    s.id != "" && 0 <= s.stageIndex <= LAST_STAGE && |s.history| <= HISTORY_LIMIT
  }

  /** A valid session once the interview has started: the rotation index is one of the
      three classmates and the coach snapshot is one the engine produced. */
  predicate Steady(s: Session) {
    Valid(s) && 0 <= s.speakerRotationIndex < 3 && WellFormed(s.coach)
  }

  /** `normalizeSession`: every field defaulted and bounded. `freshId` is the id
      `createSessionId` would generate. */
  function NormalizeSession(raw: RawSession, freshId: string): (s: Session)
    requires freshId != ""
    ensures Valid(s)
    ensures s.id == (if raw.id != "" then raw.id else freshId)
    ensures s.stageIndex == (if raw.stageIndex.Some? then ClampQuestionIndex(raw.stageIndex.value) else 0)
    ensures s.turnIndex == raw.turnIndex.GetOr(0)
    ensures s.speakerRotationIndex == raw.speakerRotationIndex.GetOr(0)
    ensures raw.history.None? ==> s.history == []
    ensures raw.history.Some? ==>
      var h := raw.history.value;
      && |s.history| == (if |h| < HISTORY_LIMIT then |h| else HISTORY_LIMIT)
      && s.history == h[|h| - |s.history|..]
    ensures s.coach == raw.coach.GetOr(InitialCoach())
  {
    Session(
      if raw.id != "" then raw.id else freshId,
      if raw.stageIndex.Some? then ClampQuestionIndex(raw.stageIndex.value) else 0,
      raw.turnIndex.GetOr(0),
      raw.speakerRotationIndex.GetOr(0),
      if raw.history.Some? then LastN(raw.history.value, HISTORY_LIMIT) else [],
      raw.coach.GetOr(InitialCoach()))
  }

  /** The form in which a session travels to the client and back. */
  function ToRaw(s: Session): RawSession
  {
    RawSession(s.id, Some(s.stageIndex), Some(s.turnIndex), Some(s.speakerRotationIndex),
      Some(s.history), Some(s.coach))
  }

  /** A valid session survives the round trip to the client unchanged, whatever id a
      fresh session would get. */
  lemma NormalizeRoundTrip(s: Session, freshId: string)
    requires Valid(s) && freshId != ""
    ensures NormalizeSession(ToRaw(s), freshId) == s
  {
  }

  // ---------------------------------------------------------------------------
  // Turn results

  /** The evaluation a turn reports; `intent` is present on user turns only. */
  datatype Evaluation = Evaluation(stage: string, intent: Option<string>, isRelevant: bool, issues: seq<string>)

  datatype TurnResult = TurnResult(
    session: Session, turns: seq<Turn>, feedback: Coach, liveTip: string, evaluation: Evaluation)

  const START_TIP: string := "Stay on topic: background, role/study, and internship intent."

  /** `runStartTurn`: the session restarts at the first stage with a fresh coach and a
      history holding only the teacher's opening question; only the id survives. */
  function RunStartTurn(s: Session): (r: TurnResult)
    ensures r.session.id == s.id
    ensures s.id != "" ==> Steady(r.session)
    ensures r.session.stageIndex == 0 && r.session.speakerRotationIndex == 0 && r.session.turnIndex == 1
    ensures r.session.coach == InitialCoach() && r.feedback == r.session.coach
    ensures |r.turns| == 1 && r.turns[0].role == TEACHER
      && r.turns[0].text == TeacherIntroQuestion(0)
    ensures r.session.history == EntriesOf(r.turns)
    ensures r.evaluation == Evaluation(StageName(Intro), None, true, [])
  {
    var teacher := ToTurn(TEACHER, TeacherIntroQuestion(0));
    var session := Session(s.id, 0, 0, 0, [], InitialCoach());
    var session := session.(history := AppendHistory(session.history, [teacher]));
    var session := session.(turnIndex := session.turnIndex + 1);
    TurnResult(session, [teacher], session.coach, START_TIP,
      Evaluation(StageName(StageByIndex(0).id), None, true, []))
  }

  /** Starting over forgets everything but the id: two sessions with the same id start
      identically. */
  lemma StartForgetsState(s1: Session, s2: Session)
    requires s1.id == s2.id
    ensures RunStartTurn(s1) == RunStartTurn(s2)
  {
  }

  const AWAITING_ANSWER: string := "Awaiting user answer."
  const ANSWER_FIRST: string := "Please answer the current question first: "

  /** `runNextTurn`: the teacher repeats the current question; only the history and the
      turn counter move. */
  function RunNextTurn(s: Session): (r: TurnResult)
    ensures r.session == s.(history := r.session.history, turnIndex := s.turnIndex + 1)
    ensures |r.turns| == 1 && r.turns[0].role == TEACHER
    ensures r.session.history == AppendHistory(s.history, r.turns)
    ensures r.feedback == s.coach
    ensures r.evaluation == Evaluation(StageName(StageByIndex(s.stageIndex).id), None, false, [AWAITING_ANSWER])
    ensures Steady(s) ==> Steady(r.session)
  {
    var stage := StageByIndex(s.stageIndex);
    var teacher := ToTurn(TEACHER, ANSWER_FIRST + stage.question);
    var session := s.(history := AppendHistory(s.history, [teacher]));
    var session := session.(turnIndex := session.turnIndex + 1);
    TurnResult(session, [teacher], session.coach, OFFTOPIC_TIP + stage.requirementHint + ".",
      Evaluation(StageName(stage.id), None, false, [AWAITING_ANSWER]))
  }

  // ---------------------------------------------------------------------------
  // User turns

  /** The optional language-model reading of a user turn. Empty strings and lists and a
      missing delta object stand for absent fields, which the controller treats alike. */
  datatype Analysis = Analysis(
    intent: string, tip: string, scoreDeltas: Option<Deltas>, suggestedTeacherReply: string,
    issues: seq<string>)

  /** An analysis with every field absent: what a missing analysis reads as. */
  const NO_ANALYSIS: Analysis := Analysis("", "", None, "", [])

  const CLARIFY: string := "CLARIFY"
  const REFUSE: string := "REFUSE"
  const OFFTOPIC: string := "OFFTOPIC"

  const CLARIFY_ISSUE: string := "User asked for clarification."
  const REFUSE_ISSUE: string := "User refused to answer."

  /** The intents the controller distinguishes; any other name is `OtherTurn`. */
  datatype TurnIntent = AnswerTurn | ClarifyTurn | RefuseTurn | OffTopicTurn | OtherTurn

  function KindOf(intent: string): (k: TurnIntent)
    ensures k == AnswerTurn <==> intent == ANSWER
    ensures k == ClarifyTurn <==> intent == CLARIFY
    ensures k == RefuseTurn <==> intent == REFUSE
    ensures k == OffTopicTurn <==> intent == OFFTOPIC
  {
    if intent == ANSWER then AnswerTurn
    else if intent == CLARIFY then ClarifyTurn
    else if intent == REFUSE then RefuseTurn
    else if intent == OFFTOPIC then OffTopicTurn
    else OtherTurn
  }

  /** The intents that redirect the learner instead of answering. */
  predicate Redirects(k: TurnIntent) {
    k == ClarifyTurn || k == RefuseTurn || k == OffTopicTurn
  }

  // The tips of the redirecting branches, each followed by the stage's requirement hint.
  const CLARIFY_TIP: string := "Clarify first, then answer with "
  const REFUSE_TIP: string := "Give at least one short attempt with "
  const OFFTOPIC_TIP: string := "Stay on topic. Include "

  /** `analysis?.intent || "ANSWER"`. */
  function IntentOf(analysis: Option<Analysis>): (intent: string)
    ensures intent != ""
    ensures analysis.None? ==> intent == ANSWER
  {
    OrElse(analysis.GetOr(NO_ANALYSIS).intent, ANSWER)
  }

  // The sample answers `clarificationExamples` offers.
  const ACHIEVEMENT_EXAMPLE_1: string := "Example 1: I improved API response time by 32% after introducing caching."
  const ACHIEVEMENT_EXAMPLE_2: string := "Example 2: I reduced onboarding time from 5 days to 2 days by writing setup scripts."
  const PROJECT_EXAMPLE_1: string := "Example 1: I built a campus app, led backend design, and increased weekly usage by 25%."
  const PROJECT_EXAMPLE_2: string := "Example 2: I created a scheduling tool, owned testing, and cut booking errors by 40%."
  const INTRO_EXAMPLE_1: string := "Example 1: I am a CS student with 2 years of JavaScript projects, and I want this internship to grow in production engineering."
  const INTRO_EXAMPLE_2: string := "Example 2: I study software engineering, built 3 team projects, and I am applying to contribute to real user-facing products."

  /** `clarificationExamples`: two sample answers for the stage; stages without their own
      samples share the introduction's. */
  function ClarificationExamples(id: StageId): (ex: seq<string>)
    ensures |ex| == 2
  {
    if id == Achievement then [ACHIEVEMENT_EXAMPLE_1, ACHIEVEMENT_EXAMPLE_2]
    else if id == Project then [PROJECT_EXAMPLE_1, PROJECT_EXAMPLE_2]
    else [INTRO_EXAMPLE_1, INTRO_EXAMPLE_2]
  }

  // The fixed sentences of the clarification and refusal replies.
  const CLARIFY_OPENING: string := "I understand the confusion."
  const CLARIFY_ASKS_FOR: string := "In simple terms, this question asks for "
  const CLARIFY_CLOSING: string := "Now please try your own answer."
  const REFUSE_REPLY: string := "No problem. Please give a brief attempt anyway so we can practice. Current question: "

  /** `buildClarifyTeacherReply`: four sentences joined by single spaces. */
  function ClarifyTeacherReply(stage: Stage, hint: string): string
  {
    var examples := ClarificationExamples(stage.id);
    CLARIFY_OPENING + " " + (CLARIFY_ASKS_FOR + hint + ".") + " " + (examples[0] + " " + examples[1])
      + " " + CLARIFY_CLOSING
  }

  /** `buildRefuseTeacherReply`. */
  function RefuseTeacherReply(stage: Stage): string
  {
    REFUSE_REPLY + stage.question
  }

  /** The teacher's reply an intent branch chooses: the analysis' suggestion, one of the
      canned replies, or none yet. */
  datatype ReplyChoice = Suggested(text: string) | ClarifyReply | RefuseReply | IrrelevantReply | NoReply

  /** The analysis' suggested reply when it has one, the canned one otherwise. */
  function SuggestedOr(a: Analysis, canned: ReplyChoice): ReplyChoice
  {
    if a.suggestedTeacherReply != "" then Suggested(a.suggestedTeacherReply) else canned
  }

  /** What a user turn settles before the teacher speaks: the teacher's reply, the
      reported relevance and issues, the tip, the score deltas and the issues handed to
      the coach. */
  datatype Plan = Plan(
    reply: ReplyChoice, isRelevant: bool, issues: seq<string>, liveTip: string,
    deltas: Deltas, grammarIssues: seq<string>)

  /** The analysis' issues when it lists any, the given ones otherwise. */
  function IssuesOr(a: Analysis, fallback: seq<string>): seq<string>
  {
    if |a.issues| > 0 then a.issues else fallback
  }

  /** A redirecting branch: never relevant, and the coach receives the reported issues. */
  function RedirectPlan(a: Analysis, reply: ReplyChoice, issues: seq<string>, tip: string, deltas: Deltas): (p: Plan)
    ensures !p.isRelevant && p.grammarIssues == p.issues
    ensures p.deltas == a.scoreDeltas.GetOr(deltas)
    ensures a.tip != "" ==> p.liveTip == a.tip
    ensures |a.issues| > 0 ==> p.issues == a.issues
    ensures |a.issues| == 0 ==> p.issues == issues
  {
    var reported := IssuesOr(a, issues);
    Plan(SuggestedOr(a, reply), false, reported, OrElse(a.tip, tip),
      a.scoreDeltas.GetOr(deltas), reported)
  }

  /** The intent branches of `runUserTurn`. A clarification request, a refusal and an
      off-topic turn are never relevant and default to their own deltas; any other
      intent keeps the stage evaluation, with the analysis' tip and deltas preferred. */
  function IntentPlan(k: TurnIntent, a: Analysis, stage: Stage, e: AnswerEvaluation): (p: Plan)
    ensures Redirects(k) ==> !p.isRelevant && p.grammarIssues == p.issues
    ensures !Redirects(k) ==>
      && p.reply == NoReply && p.isRelevant == e.isRelevant && p.issues == e.issues
      && p.grammarIssues == (if e.isRelevant then [] else e.issues)
    ensures a.scoreDeltas.Some? ==> p.deltas == a.scoreDeltas.value
    ensures a.tip != "" ==> p.liveTip == a.tip
    ensures a.scoreDeltas.None? ==>
      p.deltas == (if k == ClarifyTurn || k == RefuseTurn then FullDeltas(-1, 0, -1)
                   else if k == OffTopicTurn then FullDeltas(-1, 0, -2)
                   else e.scoreDeltas)
    ensures k == ClarifyTurn || k == RefuseTurn ==> |p.issues| > 0
  {
    var hint := stage.requirementHint;
    match k
    case ClarifyTurn =>
      RedirectPlan(a, ClarifyReply, [CLARIFY_ISSUE],
        CLARIFY_TIP + hint + ".", FullDeltas(-1, 0, -1))
    case RefuseTurn =>
      RedirectPlan(a, RefuseReply, [REFUSE_ISSUE],
        REFUSE_TIP + hint + ".", FullDeltas(-1, 0, -1))
    case OffTopicTurn =>
      RedirectPlan(a, IrrelevantReply, e.issues,
        OFFTOPIC_TIP + hint + ".", FullDeltas(-1, 0, -2))
    case _ =>
      Plan(NoReply, e.isRelevant, e.issues, OrElse(a.tip, e.tip), a.scoreDeltas.GetOr(e.scoreDeltas),
        if e.isRelevant then [] else e.issues)
  }

  /** The text a user turn records: the trimmed answer, or a placeholder when it is blank. */
  function UserEntryText(userText: string): (t: string)
    ensures t != ""
    ensures !AllSpace(userText) ==> t == Trim(userText)
  {
    OrElse(Trim(userText), NO_ANSWER)
  }

  /** Whether an answer meets the requirement of the stage the session is at. */
  predicate AnswerMeets(s: Session, userText: string) {
    StageRequirementMet(StageByIndex(s.stageIndex).id, NormalizeText(userText))
  }

  /** The vocabulary reward of a relevant answer: two for a number in an achievement. */
  function VocabularyBoost(s: Session, userText: string): int
  {
    if StageByIndex(s.stageIndex).id == Achievement && HasDigit(NormalizeText(userText)) then 2 else 1
  }

  /** The score deltas a user turn applies, read off the controller's branches: the
      analysis's own deltas when it has them; otherwise (-1, 0, -1) for a clarification
      request or a refusal, (-1, 0, -2) for an off-topic turn, and for any other intent
      the evaluation's deltas, (2, boost, 2) for an answer that meets the stage and
      (-1, 0, -2) for one that does not. */
  function TurnDeltas(s: Session, userText: string, analysis: Option<Analysis>): Deltas
  {
    if analysis.Some? && analysis.value.scoreDeltas.Some? then analysis.value.scoreDeltas.value
    else
      match KindOf(IntentOf(analysis))
      case ClarifyTurn => FullDeltas(-1, 0, -1)
      case RefuseTurn => FullDeltas(-1, 0, -1)
      case OffTopicTurn => FullDeltas(-1, 0, -2)
      case _ =>
        if AnswerMeets(s, userText) then FullDeltas(2, VocabularyBoost(s, userText), 2)
        else FullDeltas(-1, 0, -2)
  }

  /** The evaluation `runUserTurn` starts from: the trimmed answer judged against the
      stage the session is at. */
  method EvaluateCurrent(s: Session, userText: string) returns (e: AnswerEvaluation)
    ensures e.isRelevant <==> AnswerMeets(s, userText)
    ensures e.isRelevant <==> |e.issues| == 0
    ensures e.scoreDeltas ==
      if e.isRelevant then FullDeltas(2, VocabularyBoost(s, userText), 2) else FullDeltas(-1, 0, -2)
  {
    var clean := Trim(userText);
    TrimIdempotent(userText);
    e := EvaluateStage(StageByIndex(s.stageIndex).id, clean);
  }

  /** What a user turn decides: the effective intent, the plan, the teacher's reply and
      the stage index the session moves to. */
  datatype Reply = Reply(intent: string, plan: Plan, advance: bool, stageIndex: int)

  /** The decision part of `runUserTurn`. The answer is evaluated against the current
      stage; a redirecting intent makes the turn irrelevant whatever the answer, any
      other intent keeps the evaluation. The stage moves on exactly when the intent is
      an answer and the answer meets the stage's requirement. */
  method DecideReply(s: Session, userText: string, analysis: Option<Analysis>) returns (o: Reply)
    ensures o.intent == IntentOf(analysis)
    ensures o.plan.isRelevant <==> !Redirects(KindOf(o.intent)) && AnswerMeets(s, userText)
    ensures o.stageIndex ==
      (if o.intent == ANSWER && AnswerMeets(s, userText) then ClampQuestionIndex(s.stageIndex + 1)
       else s.stageIndex)
    ensures o.plan.isRelevant ==> o.plan.grammarIssues == []
    ensures !o.plan.isRelevant ==> o.plan.grammarIssues == o.plan.issues
    ensures !Redirects(KindOf(o.intent)) ==> (o.plan.isRelevant <==> |o.plan.issues| == 0)
    ensures KindOf(o.intent) == ClarifyTurn || KindOf(o.intent) == RefuseTurn ==> |o.plan.issues| > 0
    ensures analysis.Some? && analysis.value.tip != "" ==> o.plan.liveTip == analysis.value.tip
    ensures analysis.Some? && analysis.value.scoreDeltas.Some? ==> o.plan.deltas == analysis.value.scoreDeltas.value
    ensures analysis.None? ==>
      o.plan.deltas == if AnswerMeets(s, userText) then FullDeltas(2, VocabularyBoost(s, userText), 2) else FullDeltas(-1, 0, -2)
    ensures var k := KindOf(o.intent);
      (analysis.None? || analysis.value.scoreDeltas.None?) ==>
        && (k == ClarifyTurn || k == RefuseTurn ==> o.plan.deltas == FullDeltas(-1, 0, -1))
        && (k == OffTopicTurn ==> o.plan.deltas == FullDeltas(-1, 0, -2))
        && (!Redirects(k) && AnswerMeets(s, userText) ==>
              o.plan.deltas == FullDeltas(2, VocabularyBoost(s, userText), 2))
        && (!Redirects(k) && !AnswerMeets(s, userText) ==> o.plan.deltas == FullDeltas(-1, 0, -2))
    ensures o.plan.deltas == TurnDeltas(s, userText, analysis)
  {
    var stage := StageByIndex(s.stageIndex);
    var e := EvaluateCurrent(s, userText);
    var intent := IntentOf(analysis);
    var p := IntentPlan(KindOf(intent), analysis.GetOr(NO_ANALYSIS), stage, e);
    var advance := intent == ANSWER && p.isRelevant;
    var nextStage := if advance then ClampQuestionIndex(s.stageIndex + 1) else s.stageIndex;
    o := Reply(intent, p, advance, nextStage);
  }

  /** The teacher's line of a user turn: the follow-up naming the next stage's question
      when the session advances, otherwise the chosen reply, falling back to asking
      again for what the stage requires. */
  function TeacherText(s: Session, userText: string, o: Reply): string
  {
    var stage := StageByIndex(s.stageIndex);
    if o.advance then TeacherRelevantFollowUp(Trim(userText), o.stageIndex)
    else
      match o.plan.reply
      case Suggested(text) => text
      case ClarifyReply => ClarifyTeacherReply(stage, stage.requirementHint)
      case RefuseReply => RefuseTeacherReply(stage)
      case _ => TeacherIrrelevantFollowUp(stage.requirementHint)
  }

  /** The bookkeeping part of `runUserTurn`: the user's entry, the teacher's reply and the
      next classmate's line go into the history; the rotation and the turn counter move
      on; the coach takes the plan's deltas. */
  method AssembleTurn(s: Session, userText: string, o: Reply) returns (r: TurnResult)
    ensures r.session.id == s.id && r.session.turnIndex == s.turnIndex + 1
    ensures r.session.stageIndex == o.stageIndex
    ensures r.session.speakerRotationIndex == JsRem3(s.speakerRotationIndex + 1)
    ensures |r.turns| == 2 && r.turns[0] == ToTurn(TEACHER, TeacherText(s, userText, o))
      && r.turns[1].role == PickClassmate(s.speakerRotationIndex)
      && r.turns[1].text == ClassmateTemplate(r.turns[1].role)
    ensures r.session.history == AppendHistory(s.history, [ToTurn(USER, UserEntryText(userText))] + r.turns)
    ensures r.feedback == r.session.coach && r.liveTip == o.plan.liveTip
    ensures r.session.coach == ApplyScoreDeltas(Some(s.coach), o.plan.deltas, o.plan.liveTip, o.plan.grammarIssues)
    ensures r.evaluation == Evaluation(StageName(StageByIndex(s.stageIndex).id), Some(o.intent), o.plan.isRelevant, o.plan.issues)
    ensures Steady(s) && 0 <= o.stageIndex <= LAST_STAGE ==> Steady(r.session)
  {
    var userEntry := ToTurn(USER, UserEntryText(userText));
    var replies := ReplyTurns(s, userText, o);
    var coach := ApplyScoreDeltas(Some(s.coach), o.plan.deltas, o.plan.liveTip, o.plan.grammarIssues);
    AppendHistoryTwice(s.history, [userEntry], replies);
    var session := Session(s.id, o.stageIndex, s.turnIndex + 1, JsRem3(s.speakerRotationIndex + 1),
      AppendHistory(AppendHistory(s.history, [userEntry]), replies), coach);
    r := TurnResult(session, replies, coach, o.plan.liveTip,
      Evaluation(StageName(StageByIndex(s.stageIndex).id), Some(o.intent), o.plan.isRelevant, o.plan.issues));
  }

  /** The replies of a user turn: the teacher's line, then the line of the classmate
      whose turn it is in the rotation. */
  function ReplyTurns(s: Session, userText: string, o: Reply): (ts: seq<Turn>)
    ensures |ts| == 2 && ts[0] == ToTurn(TEACHER, TeacherText(s, userText, o))
      && ts[1].role == PickClassmate(s.speakerRotationIndex)
      && ts[1].text == ClassmateTemplate(ts[1].role)
  {
    var role := PickClassmate(s.speakerRotationIndex);
    [ToTurn(TEACHER, TeacherText(s, userText, o)), ToTurn(role, ClassmateTemplate(role))]
  }

  /** `runUserTurn`: records the answer, moves to the next stage exactly when the intent
      is an answer that meets the current stage's requirement, lets the teacher and the
      next classmate in the rotation reply, and scores the turn: a relevant answer earns
      confidence and clarity, an irrelevant one costs them. */
  method RunUserTurn(s: Session, userText: string, analysis: Option<Analysis>) returns (r: TurnResult)
    ensures r.session.id == s.id && r.session.turnIndex == s.turnIndex + 1
    ensures r.session.speakerRotationIndex == JsRem3(s.speakerRotationIndex + 1)
    ensures |r.turns| == 2 && r.turns[0].role == TEACHER
      && r.turns[1].role == PickClassmate(s.speakerRotationIndex)
      && r.turns[1].text == ClassmateTemplate(r.turns[1].role)
    ensures r.session.history == AppendHistory(s.history, [ToTurn(USER, UserEntryText(userText))] + r.turns)
    ensures r.evaluation.stage == StageName(StageByIndex(s.stageIndex).id)
      && r.evaluation.intent == Some(IntentOf(analysis))
    ensures r.evaluation.isRelevant <==> !Redirects(KindOf(IntentOf(analysis))) && AnswerMeets(s, userText)
    ensures r.session.stageIndex ==
      (if IntentOf(analysis) == ANSWER && AnswerMeets(s, userText) then ClampQuestionIndex(s.stageIndex + 1)
       else s.stageIndex)
    ensures r.feedback == r.session.coach && WellFormed(r.session.coach)
      && r.session.coach.tips == [r.liveTip, STANDING_TIP]
    ensures r.evaluation.isRelevant ==> r.session.coach.grammarIssues == s.coach.grammarIssues
    ensures analysis.None? ==> r.session.coach == ApplyScoreDeltas(Some(s.coach),
      if AnswerMeets(s, userText) then FullDeltas(2, VocabularyBoost(s, userText), 2) else FullDeltas(-1, 0, -2),
      r.liveTip, if AnswerMeets(s, userText) then [] else r.evaluation.issues)
    ensures r.session.coach == ApplyScoreDeltas(Some(s.coach), TurnDeltas(s, userText, analysis),
      r.liveTip, if r.evaluation.isRelevant then [] else r.evaluation.issues)
    ensures Steady(s) ==> Steady(r.session)
  {
    var o := DecideReply(s, userText, analysis);
    r := AssembleTurn(s, userText, o);
  }

  /** A learner's answers, one user turn each. */
  datatype Answer = Answer(text: string, analysis: Option<Analysis>)

  /** A run of user turns from a steady session: every snapshot along the way stays
      steady, the turn counter counts the answers, and the stage never moves back and
      moves forward at most one step per answer. */
  method RunAnswers(s: Session, answers: seq<Answer>) returns (r: Session)
    requires Steady(s)
    ensures Steady(r) && r.id == s.id
    ensures r.turnIndex == s.turnIndex + |answers|
    ensures s.stageIndex <= r.stageIndex <= s.stageIndex + |answers|
  {
    r := s;
    var i := 0;
    while i < |answers|
      invariant 0 <= i <= |answers|
      invariant Steady(r) && r.id == s.id
      invariant r.turnIndex == s.turnIndex + i
      invariant s.stageIndex <= r.stageIndex <= s.stageIndex + i
    {
      var t := RunUserTurn(r, answers[i].text, answers[i].analysis);
      r := t.session;
      i := i + 1;
    }
  }
}
